=== FILE: README.md ===
# SCColorSampler sampling core in Dafny

SCColorSampler is a macOS screen colour picker. While a sampling session runs, a
borderless overlay window follows the cursor and shows a magnified loupe of
the screen beneath it. The caller's `onMouseMoved` handler receives every colour
hovered over. On a click or Return the selection handler receives the colour
under the cursor; on Escape it receives `nil`.

This project models the logic of that core with pure functions over immutable
datatypes and proves properties of it:

- `Session` models `ColorSampler`, the session state machine. It covers
  `sample`, `show`, `reset`, `colorSelected`, `cancel`, the six event monitors
  and `removeMonitors`. Every effect a caller can observe is recorded in the
  sampler state:
  - every call of the two handlers (`callbacks`);
  - every window closed (`closed`);
  - every monitor handle given back (`released`).

  A whole run of caller commands, user input, gestures and frames is
  `Session.Run`.
- `Overlay` models the state of `ColorSamplerWindow` and the events the window
  handles itself: `mouseMoved` with its off-screen guard, frames arriving from
  the capture stream, `magnify`, `scrollWheel`, `finalizeColor` and `cancel`.
- `Placement` models `getWindowOriginPoint`: the center and noBlock follow
  modes and the four noBlock branches.
- `Capture` models `cutImageAroundPosition`: the even capture width, the
  capture height from the aspect ratio, and the flipped and scaled cursor
  pixel.
- `ZoomControl` models the dead zones of the pinch (±0.01) and the wheel (±1),
  wheel inversion, and the early return when no neighbouring preset exists.
- `LoupeView` models the geometry of `ColorSamplerView.draw`: the clip path,
  the image rectangle, the 50 × 50 replicated pixel grid, the inset aperture
  and the border. It also models `getUserViewFrame`.
- `Config` holds the configuration and the loupe-colour rule: black when the
  sampled brightness exceeds 0.8, white otherwise.
- `Geometry` holds AppKit's unflipped plane, `NSMouseInRect`,
  `CGRect.insetBy` and Swift's `round`.

Some services are called but not defined in these files. They enter the model
as parameters (`Overlay.Host`):

- cropping a frame and `colorAtCenter()`;
- the zoom presets' `getNextZoom` and `getPreviousZoom`.

What AppKit reports when an event arrives enters as `Overlay.Env`: the screen
list and `NSEvent.mouseLocation`. `CGFloat` is modelled as exact `real`.

Three behaviours of the code differ from what a reader of its method names
would expect: that `reset()` ends a session, that the selection handler hears
exactly once, and that `sample()` ends the previous session with a callback.
The model follows the code:

- `reset()` neither removes the event monitors nor clears `isRunning`.
  `sample()` therefore adds six more monitors to any left over. A `reset()`
  right after `sample()` leaves a running session without a window
  (`Session.SampleThenResetKeepsMonitors`).
- `finalizeColor()` calls the selection handler only when a colour can be
  sampled. The selection handler is therefore called at most once per window,
  not exactly once (`Session.AtMostOneTerminalPerWindow`, `Overlay.FinalizeColor`).
- `sample()` on a running session closes the previous window through `reset()`
  without calling its selection handler (`Session.Sample`).

## Model

| member | source | states |
|---|---|---|
| Geometry.InsetBy | Sources/ColorSamplerView.swift:153 | the inset rectangle exists exactly when both insets fit, keeps the centre, and moves each edge inwards by the inset |
| Geometry.Round | Sources/ColorSamplerWindow.swift:459-463 | the result is an integer within one half of the input, with ties going away from zero |
| Geometry.RoundUnique | Sources/ColorSamplerWindow.swift:459-463 | those two properties determine the rounded value uniquely |
| Config.Brightness | Sources/ColorSamplerWindow.swift:215 | the brightness is the largest of the three components |
| Config.LoupeColorFor | Sources/ColorSamplerWindow.swift:215 | the loupe is black exactly when the sampled brightness exceeds 0.8, and white otherwise |
| Config.LoupeColorContrasts | Sources/ColorSamplerWindow.swift:215 | for colours in range, the loupe colour's brightness differs from the sampled one's by at least 0.2 |
| Placement.NoBlockBranch | Sources/ColorSamplerWindow.swift:160-184 | exactly one of the four noBlock branches applies, each iff its right-edge / bottom-edge safe-area tests hold |
| Placement.CenterModeCentresOnCursor | Sources/ColorSamplerWindow.swift:156-158 | in center mode the window, and the loupe inside a show-sized window, are centred on the cursor |
| Placement.NoBlockBranchPlacement | Sources/ColorSamplerWindow.swift:159-184 | for each noBlock branch, the loupe corner that touches the cursor or keeps the follow distance from it |
| Placement.NoBlockLeavesCursorUncovered | Sources/ColorSamplerWindow.swift:159-184 | with a non-negative follow distance, noBlock never puts the cursor inside the visible loupe |
| Placement.PlacementFollowsDisplayShift | Sources/ColorSamplerWindow.swift:145-192 | placement is display-relative: shifting the cursor and the display by v shifts the window by v |
| Placement.CornerTakesRightBottom | Sources/ColorSamplerWindow.swift:160-165 | a cursor within 5 points of both the right and the bottom edge takes the right-and-bottom branch |
| Placement.WindowOrigin | Sources/ColorSamplerWindow.swift:145-192 | the display origin subtracted first and added back last cancels out: in center mode the window is centred on the cursor; in each noBlock branch the origin is the branch's offset from the cursor in global coordinates |
| Placement.TopLeftStaysOnDisplay | Sources/ColorSamplerWindow.swift:178-184 | in the default branch, with a follow distance of at most the safe-area margin, the loupe keeps off the right and bottom display edges; for a cursor on that display, it also keeps off the left and top edges |
| Capture.CaptureWidth | Sources/ColorSamplerWindow.swift:459-465 | the capture width is the least even integer not below round(round(loupe width / pixel zoom) × multiplier) |
| Capture.CaptureWidthNonNegative | Sources/ColorSamplerWindow.swift:459-463 | the capture width is never negative |
| Capture.CursorPixelFlipsAndScales | Sources/ColorSamplerWindow.swift:470-471 | the display's top-left corner maps to pixel (0, 0); a cursor move maps to the move scaled by the multiplier with y reversed |
| Capture.CaptureRect | Sources/ColorSamplerWindow.swift:467-478 | the capture rectangle is capture-width wide, has the loupe's aspect ratio, and is centred on the cursor pixel |
| Capture.CutAroundPosition | Sources/ColorSamplerWindow.swift:450-478 | without an active display nothing is cut and the zoom is untouched; otherwise a missing zoom becomes the default and that zoom's rectangle is cut |
| ZoomControl.MagnifyStep | Sources/ColorSamplerWindow.swift:255-265 | a pinch zooms in iff above 0.01, out iff below -0.01, and holds otherwise |
| ZoomControl.ScrollStep | Sources/ColorSamplerWindow.swift:278-290 | after optional negation, a wheel delta zooms in iff below -1, out iff above 1, and holds otherwise |
| ZoomControl.ScrollInversionSwapsDirection | Sources/ColorSamplerWindow.swift:278 | inverting the wheel swaps zoom-in and zoom-out and keeps the dead zone |
| ZoomControl.ApplyStep | Sources/ColorSamplerWindow.swift:255-265 | a step redraws iff a zoom is set and has a neighbour, and then moves to that neighbour; otherwise nothing changes |
| ZoomControl.ZoomInStopsAtLast | Sources/ColorSamplerWindow.swift:255-259 | at a preset without a next one, any run of zoom-in and dead-zone events stays there |
| ZoomControl.ZoomOutStopsAtFirst | Sources/ColorSamplerWindow.swift:260-264 | at a preset without a previous one, any run of zoom-out and dead-zone events stays there |
| Overlay.NewWindow | Sources/ColorSamplerWindow.swift:19-37 | a new window has no image, zoom, display or sampled colour, and a white loupe |
| Overlay.FirstScreenFrom | Sources/ColorSamplerWindow.swift:197-199 | the result is the first screen whose frame holds the cursor under NSMouseInRect, or none iff no screen does |
| Overlay.SampleAtCursor | Sources/ColorSamplerWindow.swift:75-78 | a colour is sampled only with a frame and an active display, from the capture rectangle of the current or default zoom; without a frame or without an active display nothing is sampled and the zoom is untouched |
| Overlay.MouseMoved | Sources/ColorSamplerWindow.swift:195-229 | a cursor on no screen changes nothing; otherwise the screen under it becomes the active display, with a reconfiguration only when it changes; the window is placed; the colour sampled at the cursor on that display, if any, recolours the loupe and goes to the hover handler, and the zoom is the one that sampling leaves (a missing zoom becomes the default once a frame exists) |
| Overlay.ReceiveFrame | Sources/ColorSamplerWindow.swift:325-375 | every frame replaces the image; on the first frame, the colour sampled at the cursor, if any, sets the loupe colour and the sampled colour, and sampling may default the zoom; nothing else about the window changes |
| Overlay.Magnify | Sources/ColorSamplerWindow.swift:248-269 | in the dead zone the event is a plain mouseMoved; beyond it the window moves to the next or previous preset and then runs mouseMoved, or, when there is no such preset or no zoom is set, the event is dropped with nothing changed |
| Overlay.ScrollWheel | Sources/ColorSamplerWindow.swift:271-294 | the same for the wheel, on the delta negated when the wheel is inverted |
| Overlay.ZoomEvent | Sources/ColorSamplerWindow.swift:255-267 | a dead-zone event is a plain mouseMoved; a step with a zoom set and a neighbour redraws at that neighbour; otherwise the event is dropped with nothing changed |
| Overlay.FinalizeColor | Sources/ColorSamplerWindow.swift:239-246 | the window is ordered out; the handler gets the colour under the cursor, and is not called iff there is none |
| Overlay.CancelWindow | Sources/ColorSamplerWindow.swift:296-301 | the window is ordered out and the handler is told there is no colour |
| Session.Reset | Sources/ColorSampler.swift:100-112 | the window is closed and the window, configuration and handlers are cleared; the monitors, isRunning and all callbacks are kept |
| Session.ResetIdempotent | Sources/ColorSampler.swift:100-112 | resetting twice is resetting once |
| Session.AddMouseMonitors | Sources/ColorSampler.swift:128-189 | six handles with fresh tokens, one per monitor kind in registration order, are appended after the existing ones, so every kind is subscribed |
| Session.RemoveMonitors | Sources/ColorSampler.swift:191-202 | every handle is given back in order and the list is emptied; nothing else changes |
| Session.Show | Sources/ColorSampler.swift:40-98 | without a configuration nothing happens; otherwise a new show-sized window with no zoom, a white loupe and no sampled colour is put on screen and placed at the cursor (one reconfiguration when the cursor is on a screen, none otherwise), six monitors are added, and the session runs; no handler is called, because the window has no frame yet |
| Session.Sample | Sources/ColorSampler.swift:28-38 | afterwards the session runs a fresh show-sized window on screen, with no zoom, a white loupe and no sampled colour, and with the new handlers and configuration; the old window is closed without a callback; six monitors are added to the old ones |
| Session.SampleTwiceAccumulates | Sources/ColorSampler.swift:28-38 | two sample calls leave twelve more handles and the first window closed |
| Session.SampleThenResetKeepsMonitors | Sources/ColorSampler.swift:100-112 | reset after sample closes the window but leaves the session marked running and the monitors registered |
| Session.ColorSelected | Sources/ColorSampler.swift:114-119 | the session ends and releases all handles; the selection handler receives the sampled colour of the live window, only if there is one |
| Session.Cancel | Sources/ColorSampler.swift:121-126 | the session ends and releases all handles; the live window's selection handler receives no colour |
| Session.SecondTerminalIsSilent | Sources/ColorSampler.swift:114-126 | after colorSelected or cancel, a second terminal action calls no handler and closes nothing |
| Session.KeyDown | Sources/ColorSampler.swift:157-162 | Escape is cancel, Return is colorSelected, and any other key changes nothing |
| Session.Handle | Sources/ColorSampler.swift:132-187 | the move monitors only re-run mouseMoved, recording at most one hover callback, and do nothing without a window; click and key monitors do nothing unless the session runs, and then select or act on the key |
| Session.EndedSessionIgnoresEvents | Sources/ColorSampler.swift:132-187 | once a session has ended, stale monitors still fire but change nothing |
| Session.IdleIgnoresClicksAndKeys | Sources/ColorSampler.swift:144-187 | while not running, click and key monitors change nothing |
| Session.RunningDispatchActsOnce | Sources/ColorSampler.swift:144-187 | while running, a click or key event acts once, as the first subscribed monitor's handler, however many monitors of its kind are registered |
| Session.EscapeCancels | Sources/ColorSampler.swift:153-163 | Escape on a running session is cancel |
| Session.ReturnSelects | Sources/ColorSampler.swift:176-187 | Return on a running session is colorSelected |
| Session.ClickSelects | Sources/ColorSampler.swift:166-172 | a left click on a running session is colorSelected |
| Session.EscapeAfterSampleReportsNone | Sources/ColorSampler.swift:121-126 | Escape right after sample ends the session and tells the new selection handler there is no colour |
| Session.NoWindowNoCallbacks | Sources/ColorSampler.swift:132-141 | without a window no monitored event calls any handler |
| Session.StepKeepsConsistent | Sources/ColorSampler.swift:28-202 | every command keeps the session bookkeeping consistent: live handles are fresh and distinct, and the live window has not been closed or reported |
| Session.RunKeepsConsistent | Sources/ColorSampler.swift:28-202 | every run of commands keeps the bookkeeping consistent |
| Session.AtMostOneTerminalPerWindow | Sources/ColorSampler.swift:114-126 | from the idle sampler, in every run each window gets at most one selection callback, no window is closed twice, and no handle is released twice |
| LoupeView.ApertureRect | Sources/ColorSamplerView.swift:115-116 | the aperture is a square of the zoom's aperture size centred in the view frame |
| LoupeView.ApertureCentredInLoupe | Sources/ColorSamplerView.swift:112-116 | in a show-sized view, the aperture and its stroked inset are centred in the loupe |
| LoupeView.ReplicateInstance | Sources/ColorSamplerView.swift:131-143 | instance k of a replicator is its layer translated k times by the instance transform |
| LoupeView.GridTiles | Sources/ColorSamplerView.swift:119-145 | the grid is exactly 2500 squares: square (i, j) is the seed moved by i·(size, displacement) + j·(displacement, size) |
| LoupeView.GridMeetsAperture | Sources/ColorSamplerView.swift:126-129 | without displacement, square (25, 25) has its corner on the aperture origin |
| LoupeView.Draw | Sources/ColorSamplerView.swift:53-162 | the clip always covers the loupe; the image, grid, aperture and border are drawn iff both an image and a zoom are available, with the stated strokes |
| LoupeView.UserViewFrame | Sources/ColorSamplerView.swift:37-43 | the frame has the loupe size; it moves right by the padding, and up by the padding only in noBlock mode |
| LoupeView.UserViewFrameMatchesLoupe | Sources/ColorSamplerView.swift:37-43 | for any view frame, the user view frame is the rectangle draw clips to moved by the frame's origin in noBlock mode, and that moved down by the padding in center mode |

## Left out

- ScreenCaptureKit is not modelled: starting, stopping and reconfiguring the stream, and the displays and windows it filters (ColorSamplerWindow.swift:316-448). Frames arrive as `FrameDelivered` commands. A change of active display is only counted, in `reconfigurations`.
- The stream's error path (ColorSamplerWindow.swift:377-379) is not modelled. It calls the selection handler with `nil` without ending the session. `Session.AtMostOneTerminalPerWindow` covers only sessions whose stream does not fail.
- Some AppKit side effects have no bearing on the session state and are left out: `NSCursor.hide`/`unhide`, the two `NotificationCenter` observers, `orderedIndex = 0` (ColorSampler.swift:90) and `needsDisplay`. Their handlers are not part of this model. Ordering the window in and out is modelled, as `Overlay.Window.onScreen`: set by `orderFront` in `Session.Show`, cleared by `orderOut` in `Overlay.FinalizeColor` and `Overlay.CancelWindow`.
- Some configuration values are limited to numbers above zero (`Config.Positive`): the loupe width and height, the quality multiplier, the zoom's pixel zoom and its aperture size. The configuration type and the zoom presets that supply these values are not part of this model, and the code sets no such limit itself. ColorSamplerWindow.swift:461 divides by the pixel zoom and line 468 by the loupe width. With a zero or negative value the CGFloat arithmetic would give infinities, NaN or a rectangle turned inside out; the model does not cover those cases.
- The colour-description child window is left out: its frame, contents and text. The model keeps only the `currentlySampledColor` it reads.
- The drawing calls are left out: the context, image drawing, stroke rendering and the grid squares' border style. `LoupeView.Draw` models only the geometry and the stroke parameters.
- `LoupeView.Draw` takes the cropped-image and zoom bindings as parameters. The zoom binding's write-back of the default zoom (ColorSamplerWindow.swift:85-87) is not modelled in `Draw`: it is only reached once the image binding has cut, and cutting has already set that zoom (`Capture.CutAroundPosition`).
- The branches of `magnify` and `scrollWheel` for a window without a colour-sampler delegate are left out: the delegate is always the sampler. The same holds for `scrollWheel`'s call of `super.magnify` in that branch.
- Registering an event monitor never fails in the model (no `nil` handles). `removeMonitors` therefore releases every handle.
- `ZoomControl.ApplyStep` does not model the preset enum, which is not part of this model. The neighbouring preset is whatever `getNextZoom`/`getPreviousZoom` answer.
- `Geometry.Round` and all other arithmetic are on exact reals, not on IEEE-754 `CGFloat`.
- An event reaches the monitors registered when it arrives, in registration order. How AppKit delivers to monitors removed during delivery is not modelled, and `Session.RunningDispatchActsOnce` shows it makes no difference.

=== FILE: capture.dfy ===
/** ColorSamplerWindow.cutImageAroundPosition: the rectangle of the captured
    display frame that is cut out around the cursor and magnified. */
module Capture {
  import opened Wrappers
  import opened Geometry
  import opened Config

  /** round(round(loupeWidth / pixelZoom) * multiplier): the capture width
      before it is forced even. */
  function RoundedCaptureWidth(cfg: Configuration, zoom: ZoomValue): int {
    Round(Round(cfg.loupeWidth / zoom.pixelZoom) as real * cfg.multiplier)
  }

  /** The capture width in frame pixels: the rounded width, made even by adding
      one when it is odd, i.e. the least even integer not below it. */
  function CaptureWidth(cfg: Configuration, zoom: ZoomValue): (w: int)
    ensures w % 2 == 0
    ensures RoundedCaptureWidth(cfg, zoom) <= w <= RoundedCaptureWidth(cfg, zoom) + 1
    ensures w == RoundedCaptureWidth(cfg, zoom) <==> RoundedCaptureWidth(cfg, zoom) % 2 == 0
  {
    var r := RoundedCaptureWidth(cfg, zoom);
    // truncatingRemainder(dividingBy: 2) is non-zero exactly for odd values,
    // negative ones included, as is Dafny's Euclidean remainder
    if r % 2 != 0 then r + 1 else r
  }

  /** With positive loupe width and pixel zoom the capture width is never
      negative. */
  lemma CaptureWidthNonNegative(cfg: Configuration, zoom: ZoomValue)
    ensures CaptureWidth(cfg, zoom) >= 0
  {
    var inner := Round(cfg.loupeWidth / zoom.pixelZoom);
    assert inner >= 0;
    assert inner as real * cfg.multiplier >= 0.0;
  }

  /** The cursor in frame pixels: relative to the display origin, flipped
      vertically (frames count rows from the top), scaled by the quality
      multiplier. */
  function CursorPixel(position: Point, display: Rect, multiplier: real): Point {
    Point((position.x - display.origin.x) * multiplier,
          (display.size.height - (position.y - display.origin.y)) * multiplier)
  }

  /** CursorPixel is the flip-and-scale map it claims to be: the display's
      top-left corner is pixel (0, 0), and moving the cursor by v moves the
      pixel by v scaled, with the vertical component reversed. */
  lemma CursorPixelFlipsAndScales(position: Point, display: Rect, multiplier: real, v: Point)
    ensures CursorPixel(Point(display.MinX(), display.MaxY()), display, multiplier) == Point(0.0, 0.0)
    ensures CursorPixel(Add(position, v), display, multiplier)
         == Add(CursorPixel(position, display, multiplier), Point(v.x * multiplier, -v.y * multiplier))
  {
  }

  /** The capture rectangle: CaptureWidth wide, as tall as the loupe's aspect
      ratio makes it, centred on the cursor pixel. */
  function CaptureRect(position: Point, display: Rect, zoom: ZoomValue, cfg: Configuration): (r: Rect)
    ensures r.size.width == CaptureWidth(cfg, zoom) as real
    ensures r.size.height * cfg.loupeWidth == r.size.width * cfg.loupeHeight
    ensures r.MidX() == CursorPixel(position, display, cfg.multiplier).x
    ensures r.MidY() == CursorPixel(position, display, cfg.multiplier).y
  {
    var w := CaptureWidth(cfg, zoom) as real;
    var h := w * cfg.loupeHeight / cfg.loupeWidth;
    var c := CursorPixel(position, display, cfg.multiplier);
    Rect(Point(c.x - w / 2.0, c.y - h / 2.0), Size(w, h))
  }

  /** What cutImageAroundPosition leaves behind: the rectangle handed to
      CGImage.cropping(to:), if any, and the window's zoom afterwards. */
  datatype Cut = Cut(rect: Option<Rect>, zoom: Option<ZoomValue>)

  /** cutImageAroundPosition up to the cropping itself. Without an active
      display it gives up before anything else; otherwise a missing zoom is
      first set to the configured default. */
  function CutAroundPosition(position: Point, display: Option<Rect>, zoom: Option<ZoomValue>, cfg: Configuration): (c: Cut)
    ensures display.None? ==> c == Cut(None, zoom)
    ensures display.Some? ==> c.zoom == Some(zoom.GetOr(cfg.defaultZoom))
    ensures display.Some? ==> c.rect == Some(CaptureRect(position, display.value, zoom.GetOr(cfg.defaultZoom), cfg))
  {
    match display
    case None => Cut(None, zoom)
    case Some(d) =>
      var z := if zoom.None? then cfg.defaultZoom else zoom.value;
      Cut(Some(CaptureRect(position, d, z, cfg)), Some(z))
  }
}

=== FILE: config.dfy ===
/** The session configuration (SCColorSamplerConfiguration), the zoom presets
    and the colours the loupe is drawn in. */
module Config {
  import opened Geometry

  /** A strictly positive CGFloat. */
  type Positive = r: real | r > 0.0 witness 1.0

  datatype FollowMode = Center | NoBlock

  datatype LoupeShape = Rectangle | Circle

  /** One zoom preset. The preset enum and its getters are not part of this
      model; each field holds what its getter answers at the session's quality
      (getPixelZoom(quality:), getApertureSize(), ...). */
  datatype ZoomValue = ZoomValue(
    pixelZoom: Positive,
    apertureSize: Positive,
    apertureLineWidth: real,
    insetAmount: real,
    squarePatternSize: real,
    squarePatternDisplacement: real)

  /** The configuration a session is started with. `loupeWidth`/`loupeHeight`
      are loupeSize.getSize(), `multiplier` is quality.getMultiplier(). */
  datatype Configuration = Configuration(
    loupeWidth: Positive,
    loupeHeight: Positive,
    padding: real,
    shape: LoupeShape,
    followMode: FollowMode,
    followDistance: real,
    multiplier: Positive,
    zoomValues: seq<ZoomValue>,
    defaultZoom: ZoomValue,
    zoomWheelInverse: bool,
    showColorDescription: bool)
  {
    function LoupeSize(): Size {
      Size(loupeWidth, loupeHeight)
    }
  }

  /** The overlay window ColorSampler.show creates: the loupe grown by the
      padding on every side. */
  function WindowSize(cfg: Configuration): Size {
    Size(cfg.loupeWidth + cfg.padding * 2.0, cfg.loupeHeight + cfg.padding * 2.0)
  }

  /** An RGB colour as colorAtCenter() hands it over. */
  datatype Color = Color(red: real, green: real, blue: real)

  const Black: Color := Color(0.0, 0.0, 0.0)
  const White: Color := Color(1.0, 1.0, 1.0)

  /** NSColor.brightnessComponent: the HSB brightness, the largest of the three
      RGB components. */
  function Brightness(c: Color): (b: real)
    ensures b >= c.red && b >= c.green && b >= c.blue
    ensures b == c.red || b == c.green || b == c.blue
  {
    if c.red >= c.green && c.red >= c.blue then c.red
    else if c.green >= c.blue then c.green
    else c.blue
  }

  const LoupeColorThreshold: real := 0.8

  /** The colour the aperture and the loupe border are stroked in, chosen from
      the colour under the cursor. */
  function LoupeColorFor(sampled: Color): (r: Color)
    ensures r == Black || r == White
    ensures r == Black <==> Brightness(sampled) > LoupeColorThreshold
  {
    if Brightness(sampled) > LoupeColorThreshold then Black else White
  }

  /** The stroke stands out from what it frames: its brightness differs from
      the sampled colour's by at least 0.2 whenever that lies in [0, 1]. */
  lemma LoupeColorContrasts(sampled: Color)
    requires 0.0 <= Brightness(sampled) <= 1.0
    ensures var r := LoupeColorFor(sampled);
      Brightness(r) - Brightness(sampled) >= 0.2 || Brightness(sampled) - Brightness(r) >= 0.2
  {
  }
}

=== FILE: geometry.dfy ===
/** Plane geometry of AppKit's unflipped screen space (y grows upwards), with
    CGFloat modelled as exact `real`, and the rounding rule of Swift's `round`. */
module Geometry {
  import opened Wrappers

  datatype Point = Point(x: real, y: real)

  datatype Size = Size(width: real, height: real)

  datatype Rect = Rect(origin: Point, size: Size) {
    function MinX(): real { origin.x }
    function MinY(): real { origin.y }
    function MaxX(): real { origin.x + size.width }
    function MaxY(): real { origin.y + size.height }
    function MidX(): real { origin.x + size.width / 2.0 }
    function MidY(): real { origin.y + size.height / 2.0 }
  }

  function Add(p: Point, v: Point): Point {
    Point(p.x + v.x, p.y + v.y)
  }

  function Sub(p: Point, q: Point): Point {
    Point(p.x - q.x, p.y - q.y)
  }

  /** The vector `v` taken `k` times. */
  function Scale(k: int, v: Point): Point {
    Point(k as real * v.x, k as real * v.y)
  }

  /** The same rectangle moved by `v`. */
  function Offset(r: Rect, v: Point): Rect {
    Rect(Add(r.origin, v), r.size)
  }

  /** NSMouseInRect(p, r, flipped: false): a cursor position on the left or the
      top edge is inside, one on the right or the bottom edge is not. */
  predicate MouseInRect(p: Point, r: Rect) {
    r.MinX() <= p.x < r.MaxX() && r.MinY() < p.y <= r.MaxY()
  }

  /** `p` lies in the open interior of `r`. */
  predicate StrictlyInside(p: Point, r: Rect) {
    r.MinX() < p.x < r.MaxX() && r.MinY() < p.y < r.MaxY()
  }

  /** CGRect.insetBy(dx:dy:) on a rectangle of non-negative size: every edge
      moves inwards by dx (resp. dy); when that leaves a negative width or
      height, CoreGraphics answers the null rectangle, modelled as None. */
  function InsetBy(r: Rect, dx: real, dy: real): (o: Option<Rect>)
    requires r.size.width >= 0.0 && r.size.height >= 0.0
    ensures o.Some? <==> 2.0 * dx <= r.size.width && 2.0 * dy <= r.size.height
    ensures o.Some? ==> o.value.MidX() == r.MidX() && o.value.MidY() == r.MidY()
    ensures o.Some? ==> o.value.MinX() == r.MinX() + dx && o.value.MaxX() == r.MaxX() - dx
    ensures o.Some? ==> o.value.MinY() == r.MinY() + dy && o.value.MaxY() == r.MaxY() - dy
  {
    var w := r.size.width - 2.0 * dx;
    var h := r.size.height - 2.0 * dy;
    if w < 0.0 || h < 0.0 then None
    else Some(Rect(Point(r.origin.x + dx, r.origin.y + dy), Size(w, h)))
  }

  /** Swift's `round` on CGFloat: to the nearest integer, halves away from zero. */
  function Round(x: real): (r: int)
    ensures x - 0.5 <= r as real <= x + 0.5
    ensures r as real == x + 0.5 ==> x > 0.0
    ensures r as real == x - 0.5 ==> x < 0.0
  {
    if x >= 0.0 then (x + 0.5).Floor else -((0.5 - x).Floor)
  }

  /** The two ensures of Round pin its result down: any integer within one
      half of `x` that breaks ties away from zero is Round(x). */
  lemma RoundUnique(x: real, k: int)
    requires x - 0.5 <= k as real <= x + 0.5
    requires k as real == x + 0.5 ==> x > 0.0
    requires k as real == x - 0.5 ==> x < 0.0
    ensures k == Round(x)
  {
  }
}

=== FILE: loupe_view.dfy ===
/** ColorSamplerView: the geometry of what draw(_:) puts on the overlay (clip
    path, magnified image, pixel grid, aperture, border), without the drawing
    calls themselves, and getUserViewFrame. All coordinates are relative to
    the view, whose frame is the overlay window's. */
module LoupeView {
  import opened Wrappers
  import opened Geometry
  import opened Config

  /** Instances in each of the two nested replicator layers. */
  const GridInstanceCount: nat := 50

  /** Line width of the border stroked along the clip path. */
  const BorderLineWidth: real := 4.0

  /** LoupeShape.path(in:): a rectangle or a circle inscribed in `bounds`. */
  datatype Path = Path(shape: LoupeShape, bounds: Rect)

  /** What a stroke follows: a rectangle (None for CoreGraphics' null
      rectangle, which strokes nothing) or a path. */
  datatype Outline = RectOutline(rect: Option<Rect>) | PathOutline(path: Path)

  datatype Stroke = Stroke(outline: Outline, lineWidth: real, color: Color, antialias: bool)

  /** What one draw(_:) call produces, in drawing order. */
  datatype Drawing =
    | ClipOnly(clip: Path)
    | Loupe(clip: Path, imageRect: Rect, tiles: seq<Rect>, aperture: Stroke, border: Stroke)

  /** The loupe's drawing area: the user-specified size at (padding, padding). */
  function LoupeRect(cfg: Configuration): Rect {
    Rect(Point(cfg.padding, cfg.padding), cfg.LoupeSize())
  }

  /** The aperture: a square of the zoom's aperture size centred in the view. */
  function ApertureRect(frame: Size, zoom: ZoomValue): (r: Rect)
    ensures r.size == Size(zoom.apertureSize, zoom.apertureSize)
    ensures r.MidX() == frame.width / 2.0 && r.MidY() == frame.height / 2.0
  {
    Rect(Point(frame.width / 2.0 - zoom.apertureSize / 2.0, frame.height / 2.0 - zoom.apertureSize / 2.0),
         Size(zoom.apertureSize, zoom.apertureSize))
  }

  /** In a view of the size ColorSampler.show gives the window, the aperture,
      and the inset rectangle actually stroked, are centred in the loupe. */
  lemma ApertureCentredInLoupe(cfg: Configuration, zoom: ZoomValue)
    ensures var a := ApertureRect(WindowSize(cfg), zoom);
      && a.MidX() == LoupeRect(cfg).MidX() && a.MidY() == LoupeRect(cfg).MidY()
      && var inset := InsetBy(a, zoom.insetAmount, zoom.insetAmount);
         inset.Some? ==> inset.value.MidX() == LoupeRect(cfg).MidX() && inset.value.MidY() == LoupeRect(cfg).MidY()
  {
  }

  /** The first grid square: side squarePatternSize, 25 squares below and to
      the left of the aperture origin. */
  function SeedTile(aperture: Rect, zoom: ZoomValue): Rect {
    var s := zoom.squarePatternSize;
    Rect(Point(aperture.origin.x - s * 25.0, aperture.origin.y - s * 25.0), Size(s, s))
  }

  function Shift(layer: seq<Rect>, v: Point): (r: seq<Rect>)
    ensures |r| == |layer|
    ensures forall i :: 0 <= i < |layer| ==> r[i] == Offset(layer[i], v)
  {
    seq(|layer|, i requires 0 <= i < |layer| => Offset(layer[i], v))
  }

  /** A CAReplicatorLayer with `count` instances of `layer`: the first as is,
      each next one the previous one moved by the instance transform `step`. */
  function Replicate(layer: seq<Rect>, count: nat, step: Point): (r: seq<Rect>)
    ensures |r| == count * |layer|
    decreases count
  {
    if count == 0 then [] else layer + Replicate(Shift(layer, step), count - 1, step)
  }

  /** Index arithmetic of a replicated layer: instance k starts one layer
      after instance k - 1 and ends inside `count` layers. */
  lemma InstanceIndex(k: nat, n: nat, count: nat, i: nat)
    requires 0 < k < count && i < n
    ensures n + ((k - 1) * n + i) == k * n + i
    ensures k * n + i < count * n
  {
    assert k * n + n <= count * n by {
      assert (k + 1) * n == k * n + n;
      assert k + 1 <= count;
    }
  }

  /** Moving by the step and then k - 1 more times is moving k times. */
  lemma OffsetSteps(r: Rect, step: Point, k: nat)
    requires k > 0
    ensures Offset(Offset(r, step), Scale(k - 1, step)) == Offset(r, Scale(k, step))
  {
    assert (k - 1) as real * step.x + step.x == k as real * step.x;
    assert (k - 1) as real * step.y + step.y == k as real * step.y;
  }

  /** Instance k of a replicated layer is the layer moved k times by the step. */
  lemma {:induction false} ReplicateInstance(layer: seq<Rect>, count: nat, step: Point, k: nat, i: nat)
    requires k < count && i < |layer|
    ensures k * |layer| + i < |Replicate(layer, count, step)|
    ensures Replicate(layer, count, step)[k * |layer| + i] == Offset(layer[i], Scale(k, step))
    decreases count
  {
    var n := |layer|;
    var shifted := Shift(layer, step);
    var rest := Replicate(shifted, count - 1, step);
    assert Replicate(layer, count, step) == layer + rest;
    if k == 0 {
      assert 0 * n + i == i;
      assert Scale(0, step) == Point(0.0, 0.0);
    } else {
      ReplicateInstance(shifted, count - 1, step, k - 1, i);
      var m := (k - 1) * n + i;
      assert rest[m] == Offset(shifted[i], Scale(k - 1, step));
      InstanceIndex(k, n, count, i);
      assert (layer + rest)[n + m] == rest[m];
      OffsetSteps(layer[i], step, k);
    }
  }

  /** The pixel grid: the seed replicated 50 times by (size, displacement),
      and that row replicated 50 times by (displacement, size). */
  function Grid(seed: Rect, size: real, displacement: real): seq<Rect> {
    Replicate(Replicate([seed], GridInstanceCount, Point(size, displacement)),
              GridInstanceCount, Point(displacement, size))
  }

  /** Square (i, j) of the grid in closed form. */
  function Tile(seed: Rect, size: real, displacement: real, i: int, j: int): Rect {
    Offset(seed, Point(i as real * size + j as real * displacement, i as real * displacement + j as real * size))
  }

  /** Square (i, j) of the grid: instance j of the outer layer applied to
      instance i of the inner one. */
  lemma GridTile(seed: Rect, size: real, displacement: real, i: nat, j: nat)
    requires i < 50 && j < 50
    ensures 50 * j + i < |Grid(seed, size, displacement)|
    ensures Grid(seed, size, displacement)[50 * j + i] == Tile(seed, size, displacement, i, j)
  {
    var inner := Replicate([seed], GridInstanceCount, Point(size, displacement));
    ReplicateInstance([seed], GridInstanceCount, Point(size, displacement), i, 0);
    assert i * 1 + 0 == i;
    assert inner[i] == Offset(seed, Scale(i, Point(size, displacement)));
    ReplicateInstance(inner, GridInstanceCount, Point(displacement, size), j, i);
    assert j * |inner| + i == 50 * j + i;
    TwoOffsets(seed, size, displacement, i, j);
  }

  /** Moving i times along the row and then j times across is the closed form. */
  lemma TwoOffsets(seed: Rect, size: real, displacement: real, i: nat, j: nat)
    ensures Offset(Offset(seed, Scale(i, Point(size, displacement))), Scale(j, Point(displacement, size)))
         == Tile(seed, size, displacement, i, j)
  {
  }

  /** The nested replication yields exactly the 2500 squares seed + i·(s, d) +
      j·(d, s), for i, j in [0, 50), row j after row j - 1. */
  lemma GridTiles(seed: Rect, size: real, displacement: real)
    ensures |Grid(seed, size, displacement)| == 2500
    ensures forall i, j :: 0 <= i < 50 && 0 <= j < 50 ==>
      Grid(seed, size, displacement)[50 * j + i] == Tile(seed, size, displacement, i, j)
  {
    forall i: nat, j: nat | i < 50 && j < 50
      ensures Grid(seed, size, displacement)[50 * j + i] == Tile(seed, size, displacement, i, j)
    {
      GridTile(seed, size, displacement, i, j);
    }
  }

  /** Without displacement the grid is a plain lattice with a square corner
      on the aperture's origin. */
  lemma GridMeetsAperture(aperture: Rect, zoom: ZoomValue)
    requires zoom.squarePatternDisplacement == 0.0
    ensures Tile(SeedTile(aperture, zoom), zoom.squarePatternSize, 0.0, 25, 25).origin == aperture.origin
  {
  }

  /** draw(_:): the clip path over the loupe rectangle always; then, only when
      both a cropped image and a zoom are at hand, the image in that
      rectangle, the grid, the inset aperture (zoom's line width, no
      antialiasing) and the border along the clip path (width 4, antialiased),
      both in the loupe colour. */
  function Draw(cfg: Configuration, frame: Size, croppedImage: bool, zoom: Option<ZoomValue>, loupeColor: Color): (d: Drawing)
    ensures d.clip == Path(cfg.shape, LoupeRect(cfg))
    ensures d.ClipOnly? <==> !croppedImage || zoom.None?
    ensures d.Loupe? ==> d.imageRect == d.clip.bounds && |d.tiles| == 2500
    ensures d.Loupe? ==>
      var z := zoom.value;
      && d.tiles == Grid(SeedTile(ApertureRect(frame, z), z), z.squarePatternSize, z.squarePatternDisplacement)
      && d.aperture.outline == RectOutline(InsetBy(ApertureRect(frame, z), z.insetAmount, z.insetAmount))
      && d.aperture.lineWidth == z.apertureLineWidth && !d.aperture.antialias
    ensures d.Loupe? ==> d.border.outline == PathOutline(d.clip) && d.border.lineWidth == BorderLineWidth
    ensures d.Loupe? ==> d.border.antialias && d.border.color == loupeColor && d.aperture.color == loupeColor
  {
    var clip := Path(cfg.shape, LoupeRect(cfg));
    if !croppedImage || zoom.None? then ClipOnly(clip)
    else
      var z := zoom.value;
      var aperture := ApertureRect(frame, z);
      var tiles := Grid(SeedTile(aperture, z), z.squarePatternSize, z.squarePatternDisplacement);
      GridTiles(SeedTile(aperture, z), z.squarePatternSize, z.squarePatternDisplacement);
      Loupe(clip, LoupeRect(cfg), tiles,
            Stroke(RectOutline(InsetBy(aperture, z.insetAmount, z.insetAmount)), z.apertureLineWidth, loupeColor, false),
            Stroke(PathOutline(clip), BorderLineWidth, loupeColor, true))
  }

  /** getUserViewFrame(): the loupe-sized frame inside the view frame, moved
      right by the padding, and up by the padding only in noBlock mode. */
  function UserViewFrame(cfg: Configuration, frameRect: Rect): (r: Rect)
    ensures r.size == cfg.LoupeSize()
    ensures r.origin.x == frameRect.origin.x + cfg.padding
    ensures cfg.followMode == NoBlock ==> r.origin.y == frameRect.origin.y + cfg.padding
    ensures cfg.followMode == Center ==> r.origin.y == frameRect.origin.y
  {
    var originOffset := if cfg.followMode == NoBlock then cfg.padding else 0.0;
    Rect(Point(frameRect.origin.x + cfg.padding, frameRect.origin.y + originOffset), cfg.LoupeSize())
  }

  /** getUserViewFrame agrees with the rectangle draw(_:) clips to, moved by
      the view frame's origin, in noBlock mode; in center mode it lies the
      padding lower. */
  lemma UserViewFrameMatchesLoupe(cfg: Configuration, frameRect: Rect)
    ensures var u := UserViewFrame(cfg, frameRect);
      && (cfg.followMode == NoBlock ==> u == Offset(LoupeRect(cfg), frameRect.origin))
      && (cfg.followMode == Center ==> u == Offset(LoupeRect(cfg), Point(frameRect.origin.x, frameRect.origin.y - cfg.padding)))
  {
  }
}

=== FILE: overlay.dfy ===
/** ColorSamplerWindow: the overlay window's own state and the events it
    handles itself (pointer moves, frames, zoom gestures, the two terminal
    actions). */
module Overlay {
  import opened Wrappers
  import opened Geometry
  import opened Config
  import opened Placement
  import opened Capture
  import opened ZoomControl

  /** An NSScreen, by identity, with its frame in global coordinates. */
  datatype Screen = Screen(id: nat, frame: Rect)

  /** A display frame delivered by the capture stream, by identity. */
  datatype Frame = Frame(id: nat)

  /** Services the code calls but does not define. `probe` stands for
      CGImage.cropping(to:) followed by colorAtCenter(): the colour at the
      centre of the given rectangle of a frame, or None when either fails. */
  datatype Host = Host(probe: (Frame, Rect) -> Option<Color>, steps: ZoomSteps)

  /** What the window reads from AppKit when an event arrives: the screens in
      NSScreen.screens order and NSEvent.mouseLocation. */
  datatype Env = Env(screens: seq<Screen>, mouse: Point)

  datatype Window = Window(
    id: nat,
    size: Size,
    origin: Point,
    onScreen: bool,
    activeDisplay: Option<Screen>,
    reconfigurations: nat,        // times the activeDisplay observer asked the stream to reconfigure
    zoom: Option<ZoomValue>,
    image: Option<Frame>,
    loupeColor: Color,
    sampledColor: Option<Color>)

  /** A freshly initialised window: no display, zoom or frame yet, white loupe. */
  function NewWindow(id: nat, size: Size): (w: Window)
    ensures w.id == id && w.size == size
    ensures w.activeDisplay.None? && w.zoom.None? && w.image.None? && w.sampledColor.None?
    ensures w.loupeColor == White && !w.onScreen
  {
    Window(id, size, Point(0.0, 0.0), false, None, 0, None, None, White, None)
  }

  /** NSScreen.screens.first(where:) with NSMouseInRect: the index of the first
      screen, from `from` on, whose frame holds the cursor. */
  function FirstScreenFrom(screens: seq<Screen>, p: Point, from: nat): (r: Option<nat>)
    requires from <= |screens|
    ensures r.None? <==> forall i :: from <= i < |screens| ==> !MouseInRect(p, screens[i].frame)
    ensures r.Some? ==> from <= r.value < |screens| && MouseInRect(p, screens[r.value].frame)
    ensures r.Some? ==> forall i :: from <= i < r.value ==> !MouseInRect(p, screens[i].frame)
    decreases |screens| - from
  {
    if from == |screens| then None
    else if MouseInRect(p, screens[from].frame) then Some(from)
    else FirstScreenFrom(screens, p, from + 1)
  }

  function DisplayFrame(display: Option<Screen>): Option<Rect> {
    match display
    case None => None
    case Some(s) => Some(s.frame)
  }

  /** What croppedImageBinding and colorAtCenter() yield: the colour under the
      cursor, if any, and the window's zoom afterwards (cutting sets a missing
      zoom to the default). Without a frame nothing is cut. */
  datatype Sample = Sample(color: Option<Color>, zoom: Option<ZoomValue>)

  function SampleAtCursor(w: Window, mouse: Point, cfg: Configuration, host: Host): (s: Sample)
    ensures w.image.None? ==> s == Sample(None, w.zoom)
    ensures w.activeDisplay.None? ==> s == Sample(None, w.zoom)
    ensures s.color.Some? ==> w.image.Some? && w.activeDisplay.Some?
    ensures w.image.Some? && w.activeDisplay.Some? ==>
      && s.zoom == Some(w.zoom.GetOr(cfg.defaultZoom))
      && s.color == host.probe(w.image.value,
                               CaptureRect(mouse, w.activeDisplay.value.frame, w.zoom.GetOr(cfg.defaultZoom), cfg))
    ensures s.zoom == w.zoom || (w.zoom.None? && s.zoom == Some(cfg.defaultZoom))
  {
    match w.image
    case None => Sample(None, w.zoom)
    case Some(img) =>
      var cut := CutAroundPosition(mouse, DisplayFrame(w.activeDisplay), w.zoom, cfg);
      Sample(if cut.rect.Some? then host.probe(img, cut.rect.value) else None, cut.zoom)
  }

  /** The outcome of an event that ends in mouseMoved: the window, and the
      colour handed to the on-mouse-moved handler, if one was. */
  datatype Moved = Moved(window: Window, hover: Option<Color>)

  /** mouseMoved(with:). A cursor on no screen changes nothing. Otherwise the
      screen under it becomes the active display (the reconfiguring observer
      fires only when that is a different screen), the window is placed, and
      a colour under the cursor recolours the loupe and goes to the handler. */
  function MouseMoved(w: Window, env: Env, cfg: Configuration, host: Host): (m: Moved)
    ensures m.window.id == w.id && m.window.size == w.size && m.window.image == w.image
    ensures m.window.onScreen == w.onScreen
    ensures FirstScreenFrom(env.screens, env.mouse, 0).None? ==> m == Moved(w, None)
    ensures FirstScreenFrom(env.screens, env.mouse, 0).Some? ==>
      var screen := env.screens[FirstScreenFrom(env.screens, env.mouse, 0).value];
      && m.window.activeDisplay == Some(screen)
      && m.window.origin == WindowOrigin(env.mouse, screen.frame, w.size, cfg)
      && m.window.reconfigurations == w.reconfigurations + (if w.activeDisplay == Some(screen) then 0 else 1)
    ensures m.hover.Some? ==> w.image.Some? && m.window.loupeColor == LoupeColorFor(m.hover.value)
    ensures m.hover.None? ==> m.window.loupeColor == w.loupeColor && m.window.sampledColor == w.sampledColor
    ensures m.hover.Some? ==> m.window.sampledColor == (if cfg.showColorDescription then m.hover else w.sampledColor)
    ensures m.window.zoom == w.zoom || (w.zoom.None? && m.window.zoom == Some(cfg.defaultZoom))
    ensures FirstScreenFrom(env.screens, env.mouse, 0).Some? ==>
      var screen := env.screens[FirstScreenFrom(env.screens, env.mouse, 0).value];
      && m.hover == SampleAtCursor(w.(activeDisplay := Some(screen)), env.mouse, cfg, host).color
      && m.window.zoom == SampleAtCursor(w.(activeDisplay := Some(screen)), env.mouse, cfg, host).zoom
  {
    match FirstScreenFrom(env.screens, env.mouse, 0)
    case None => Moved(w, None)
    case Some(i) =>
      var screen := env.screens[i];
      var w1 := if w.activeDisplay != Some(screen)
        then w.(activeDisplay := Some(screen), reconfigurations := w.reconfigurations + 1)
        else w;
      var w2 := w1.(origin := WindowOrigin(env.mouse, screen.frame, w.size, cfg));
      var s := SampleAtCursor(w2, env.mouse, cfg, host);
      var w3 := w2.(zoom := s.zoom);
      match s.color
      case None => Moved(w3, None)
      case Some(c) =>
        Moved(w3.(loupeColor := LoupeColorFor(c),
                  sampledColor := if cfg.showColorDescription then Some(c) else w3.sampledColor),
              Some(c))
  }

  /** A frame from the capture stream. The latest frame always replaces the
      previous one; the first one also colours the loupe from the colour under
      the cursor (the content view is created then, which is not modelled). */
  function ReceiveFrame(w: Window, f: Frame, mouse: Point, cfg: Configuration, host: Host): (r: Window)
    ensures r.image == Some(f)
    ensures r.id == w.id && r.size == w.size && r.origin == w.origin && r.onScreen == w.onScreen
    ensures r.activeDisplay == w.activeDisplay && r.reconfigurations == w.reconfigurations
    ensures w.image.Some? ==> r == w.(image := Some(f))
    ensures w.image.None? && w.activeDisplay.None? ==> r == w.(image := Some(f))
    ensures w.image.None? ==>
      var s := SampleAtCursor(w.(image := Some(f)), mouse, cfg, host);
      && r.zoom == s.zoom
      && (s.color.Some? ==> r.loupeColor == LoupeColorFor(s.color.value) && r.sampledColor == s.color)
      && (s.color.None? ==> r.loupeColor == w.loupeColor && r.sampledColor == w.sampledColor)
  {
    if w.image.Some? then w.(image := Some(f))
    else
      var w1 := w.(image := Some(f));
      var s := SampleAtCursor(w1, mouse, cfg, host);
      var w2 := w1.(zoom := s.zoom);
      match s.color
      case None => w2
      case Some(c) => w2.(loupeColor := LoupeColorFor(c), sampledColor := Some(c))
  }

  /** A zoom step followed, unless it returned early, by mouseMoved. */
  function ZoomEvent(w: Window, step: Step, env: Env, cfg: Configuration, host: Host): (m: Moved)
    ensures m.window.id == w.id && m.window.size == w.size && m.window.onScreen == w.onScreen
    ensures step == Hold ==> m == MouseMoved(w, env, cfg, host)
    ensures step != Hold ==>
      if w.zoom.Some? && Neighbour(host.steps, step, cfg.zoomValues, w.zoom.value).Some?
      then m == MouseMoved(w.(zoom := Neighbour(host.steps, step, cfg.zoomValues, w.zoom.value)), env, cfg, host)
      else m == Moved(w, None)
  {
    var u := ApplyStep(w.zoom, step, cfg.zoomValues, host.steps);
    if u.redraw then MouseMoved(w.(zoom := u.zoom), env, cfg, host) else Moved(w, None)
  }

  /** magnify(with:): a pinch beyond the dead zone moves to the next
      (opening) or previous (closing) preset; when there is none, or no zoom
      is set yet, the event is dropped without redrawing. */
  function Magnify(w: Window, magnification: real, env: Env, cfg: Configuration, host: Host): (m: Moved)
    ensures m.window.id == w.id && m.window.size == w.size && m.window.onScreen == w.onScreen
    ensures -MagnifyDeadZone <= magnification <= MagnifyDeadZone ==> m == MouseMoved(w, env, cfg, host)
    ensures w.zoom.Some? && -MagnifyDeadZone <= magnification <= MagnifyDeadZone ==> m.window.zoom == w.zoom
    ensures magnification > MagnifyDeadZone ==>
      if w.zoom.Some? && host.steps.next(cfg.zoomValues, w.zoom.value).Some?
      then m == MouseMoved(w.(zoom := host.steps.next(cfg.zoomValues, w.zoom.value)), env, cfg, host)
      else m == Moved(w, None)
    ensures magnification < -MagnifyDeadZone ==>
      if w.zoom.Some? && host.steps.previous(cfg.zoomValues, w.zoom.value).Some?
      then m == MouseMoved(w.(zoom := host.steps.previous(cfg.zoomValues, w.zoom.value)), env, cfg, host)
      else m == Moved(w, None)
  {
    ZoomEvent(w, MagnifyStep(magnification), env, cfg, host)
  }

  /** scrollWheel(with:): the same for the wheel, with the delta negated when
      the configuration inverts the wheel; scrolling down zooms in. */
  function ScrollWheel(w: Window, deltaY: real, env: Env, cfg: Configuration, host: Host): (m: Moved)
    ensures m.window.id == w.id && m.window.size == w.size && m.window.onScreen == w.onScreen
    ensures var d := if cfg.zoomWheelInverse then -deltaY else deltaY;
      && (-ScrollDeadZone <= d <= ScrollDeadZone ==> m == MouseMoved(w, env, cfg, host))
      && (d < -ScrollDeadZone ==>
            if w.zoom.Some? && host.steps.next(cfg.zoomValues, w.zoom.value).Some?
            then m == MouseMoved(w.(zoom := host.steps.next(cfg.zoomValues, w.zoom.value)), env, cfg, host)
            else m == Moved(w, None))
      && (d > ScrollDeadZone ==>
            if w.zoom.Some? && host.steps.previous(cfg.zoomValues, w.zoom.value).Some?
            then m == MouseMoved(w.(zoom := host.steps.previous(cfg.zoomValues, w.zoom.value)), env, cfg, host)
            else m == Moved(w, None))
  {
    ZoomEvent(w, ScrollStep(deltaY, cfg.zoomWheelInverse), env, cfg, host)
  }

  /** What a terminal action hands the selection handler: nothing at all
      (Silent), or a colour or None. */
  datatype Report = Silent | Reported(color: Option<Color>)

  datatype Closing = Closing(window: Window, report: Report)

  /** finalizeColor(): the colour under the cursor, if one can be sampled, goes
      to the selection handler; the window is ordered out either way. The
      active display is the one of the last move: it is not looked up again. */
  function FinalizeColor(w: Window, mouse: Point, cfg: Configuration, host: Host): (c: Closing)
    ensures c.window.id == w.id && !c.window.onScreen
    ensures c.report.Silent? <==> SampleAtCursor(w, mouse, cfg, host).color.None?
    ensures c.report.Reported? ==> c.report.color.Some?
    ensures c.report.Reported? ==> c.report.color == SampleAtCursor(w, mouse, cfg, host).color
  {
    var s := SampleAtCursor(w, mouse, cfg, host);
    var w1 := w.(zoom := s.zoom, onScreen := false);
    if s.color.Some? then Closing(w1, Reported(s.color)) else Closing(w1, Silent)
  }

  /** cancel(): the selection handler is told there is no colour, and the
      window is ordered out. */
  function CancelWindow(w: Window): (c: Closing)
    ensures c.window.id == w.id && !c.window.onScreen
    ensures c.report == Reported(None)
  {
    Closing(w.(onScreen := false), Reported(None))
  }
}

=== FILE: placement.dfy ===
/** ColorSamplerWindow.getWindowOriginPoint: where the overlay window goes for a
    cursor position on a display. */
module Placement {
  import opened Geometry
  import opened Config

  /** How close the loupe may come to the right or bottom display edge before
      the noBlock placement dodges. */
  const SafeAreaDistance: real := 10.0

  /** The four placements of noBlock mode, named after the edges they dodge. */
  datatype Branch = RightBottom | Right | Bottom | TopLeft

  /** A loupe to the right of the cursor would reach into the right safe area.
      `local` is the cursor relative to the display origin. */
  predicate NearRight(local: Point, displayWidth: real, loupe: Size) {
    local.x + loupe.width >= displayWidth - SafeAreaDistance
  }

  /** A loupe below the cursor would reach into the bottom safe area. */
  predicate NearBottom(local: Point, loupe: Size) {
    local.y - loupe.height <= SafeAreaDistance
  }

  /** The noBlock branch taken; the tests are made in the order right and
      bottom, right, bottom, so exactly one branch applies to every input. */
  function NoBlockBranch(local: Point, displayWidth: real, loupe: Size): (b: Branch)
    ensures b == RightBottom <==> NearRight(local, displayWidth, loupe) && NearBottom(local, loupe)
    ensures b == Right <==> NearRight(local, displayWidth, loupe) && !NearBottom(local, loupe)
    ensures b == Bottom <==> !NearRight(local, displayWidth, loupe) && NearBottom(local, loupe)
    ensures b == TopLeft <==> !NearRight(local, displayWidth, loupe) && !NearBottom(local, loupe)
  {
    if NearRight(local, displayWidth, loupe) && NearBottom(local, loupe) then RightBottom
    else if NearRight(local, displayWidth, loupe) then Right
    else if NearBottom(local, loupe) then Bottom
    else TopLeft
  }

  /** The window origin in display-local coordinates. */
  function LocalOrigin(local: Point, displayWidth: real, window: Size, cfg: Configuration): Point {
    match cfg.followMode
    case Center =>
      Point(local.x - window.width / 2.0, local.y - window.height / 2.0)
    case NoBlock =>
      match NoBlockBranch(local, displayWidth, cfg.LoupeSize())
      case RightBottom =>
        Point(local.x - window.width + cfg.padding, local.y - cfg.padding)
      case Right =>
        Point(local.x - window.width + cfg.padding,
              local.y - window.height + cfg.padding - cfg.followDistance)
      case Bottom =>
        Point(local.x - cfg.padding, local.y - cfg.padding)
      case TopLeft =>
        Point(local.x - cfg.padding + cfg.followDistance,
              local.y - window.height + cfg.padding - cfg.followDistance)
  }

  /** getWindowOriginPoint: the cursor is made relative to the display origin,
      placed there, and the display origin is added back. */
  function WindowOrigin(position: Point, display: Rect, window: Size, cfg: Configuration): (o: Point)
    ensures cfg.followMode == Center ==>
      o == Point(position.x - window.width / 2.0, position.y - window.height / 2.0)
    ensures cfg.followMode == NoBlock ==>
      var b := NoBlockBranch(Sub(position, display.origin), display.size.width, cfg.LoupeSize());
      && (b == RightBottom ==> o == Point(position.x - window.width + cfg.padding, position.y - cfg.padding))
      && (b == Right ==>
            o == Point(position.x - window.width + cfg.padding,
                       position.y - window.height + cfg.padding - cfg.followDistance))
      && (b == Bottom ==> o == Point(position.x - cfg.padding, position.y - cfg.padding))
      && (b == TopLeft ==>
            o == Point(position.x - cfg.padding + cfg.followDistance,
                       position.y - window.height + cfg.padding - cfg.followDistance))
  {
    Add(LocalOrigin(Sub(position, display.origin), display.size.width, window, cfg), display.origin)
  }

  /** The part of the overlay the user sees: the loupe, `padding` inside the
      window on every side. */
  function VisibleLoupe(origin: Point, cfg: Configuration): Rect {
    Rect(Point(origin.x + cfg.padding, origin.y + cfg.padding), cfg.LoupeSize())
  }

  /** In center mode the window is centred on the cursor, and so is the loupe
      in a window of the size ColorSampler.show gives it. */
  lemma CenterModeCentresOnCursor(position: Point, display: Rect, window: Size, cfg: Configuration)
    requires cfg.followMode == Center
    ensures WindowOrigin(position, display, window, cfg)
         == Point(position.x - window.width / 2.0, position.y - window.height / 2.0)
    ensures window == WindowSize(cfg) ==>
      var loupe := VisibleLoupe(WindowOrigin(position, display, window, cfg), cfg);
      loupe.MidX() == position.x && loupe.MidY() == position.y
  {
  }

  /** Where each noBlock branch puts the window, and what that means for the
      loupe inside a window of the size ColorSampler.show gives it. */
  lemma NoBlockBranchPlacement(position: Point, display: Rect, cfg: Configuration)
    requires cfg.followMode == NoBlock
    ensures
      var b := NoBlockBranch(Sub(position, display.origin), display.size.width, cfg.LoupeSize());
      var o := WindowOrigin(position, display, WindowSize(cfg), cfg);
      var loupe := VisibleLoupe(o, cfg);
      && (b == RightBottom || b == Bottom ==> o.y == position.y - cfg.padding)
      && (b == Right || b == RightBottom ==> o.x == position.x - WindowSize(cfg).width + cfg.padding)
      && (b == RightBottom ==> loupe.MaxX() == position.x && loupe.MinY() == position.y)
      && (b == Right ==> loupe.MaxX() == position.x && loupe.MaxY() == position.y - cfg.followDistance)
      && (b == Bottom ==> loupe.MinX() == position.x && loupe.MinY() == position.y)
      && (b == TopLeft ==>
            loupe.MinX() == position.x + cfg.followDistance && loupe.MaxY() == position.y - cfg.followDistance)
  {
  }

  /** noBlock lives up to its name: with a non-negative follow distance the
      cursor never lies inside the loupe the user sees. */
  lemma NoBlockLeavesCursorUncovered(position: Point, display: Rect, cfg: Configuration)
    requires cfg.followMode == NoBlock
    requires cfg.followDistance >= 0.0
    ensures !StrictlyInside(position, VisibleLoupe(WindowOrigin(position, display, WindowSize(cfg), cfg), cfg))
  {
    NoBlockBranchPlacement(position, display, cfg);
  }

  /** Placement is computed relative to the display: moving the cursor and the
      display by the same vector moves the window by that vector. */
  lemma PlacementFollowsDisplayShift(position: Point, display: Rect, window: Size, cfg: Configuration, v: Point)
    ensures WindowOrigin(Add(position, v), Offset(display, v), window, cfg)
         == Add(WindowOrigin(position, display, window, cfg), v)
  {
    assert Sub(Add(position, v), Offset(display, v).origin) == Sub(position, display.origin);
  }

  /** A cursor within 5 points of both the right and the bottom display edge
      takes the right-and-bottom branch. */
  lemma CornerTakesRightBottom(position: Point, display: Rect, cfg: Configuration)
    requires display.MaxX() - 5.0 <= position.x && position.y <= display.MinY() + 5.0
    ensures NoBlockBranch(Sub(position, display.origin), display.size.width, cfg.LoupeSize()) == RightBottom
  {
  }

  /** In the default top-left branch the loupe stays on the display, provided
      the follow distance does not exceed the safe-area margin: it keeps off
      the right and bottom edges, and, for a cursor on that display (the only
      display mouseMoved places the window on), off the left and top edges. */
  lemma TopLeftStaysOnDisplay(position: Point, display: Rect, cfg: Configuration)
    requires cfg.followMode == NoBlock
    requires 0.0 <= cfg.followDistance <= SafeAreaDistance
    requires NoBlockBranch(Sub(position, display.origin), display.size.width, cfg.LoupeSize()) == TopLeft
    ensures var loupe := VisibleLoupe(WindowOrigin(position, display, WindowSize(cfg), cfg), cfg);
      loupe.MaxX() < display.MaxX() && loupe.MinY() > display.MinY()
    ensures MouseInRect(position, display) ==>
      var loupe := VisibleLoupe(WindowOrigin(position, display, WindowSize(cfg), cfg), cfg);
      display.MinX() <= loupe.MinX() && loupe.MaxY() <= display.MaxY()
  {
  }
}

=== FILE: session.dfy ===
/** ColorSampler: the sampling session. It owns the overlay window, the caller's
    two handlers, the configuration and the event-monitor handles, and moves
    between idle and running through sample, colorSelected, cancel and reset.

    Everything a session does that the caller can observe is recorded in the
    state: the handler calls (`callbacks`), the windows closed (`closed`, by
    window id) and the monitor handles given back (`released`, by token). */
module Session {
  import opened Wrappers
  import opened Geometry
  import opened Config
  import opened Placement
  import opened Overlay

  /** Carbon key codes kVK_Return and kVK_Escape. */
  const KeyReturn: int := 0x24
  const KeyEscape: int := 0x35

  /** A closure supplied by the caller, by identity. */
  datatype Handler = Handler(id: nat)

  /** The six event monitors addMouseMonitor installs, in order. */
  datatype MonitorKind =
    | GlobalMouseMoved
    | LocalMouseExited
    | GlobalLeftMouseDown
    | GlobalKeyDown
    | LocalLeftMouseDown
    | LocalKeyDown

  const MonitorKinds: seq<MonitorKind> :=
    [GlobalMouseMoved, LocalMouseExited, GlobalLeftMouseDown, GlobalKeyDown, LocalLeftMouseDown, LocalKeyDown]

  /** An opaque handle returned by NSEvent.add...MonitorForEvents. */
  datatype Monitor = Monitor(token: nat, kind: MonitorKind)

  /** An event as the monitors of one kind see it. */
  datatype InputEvent = InputEvent(kind: MonitorKind, keyCode: int)

  datatype Callback =
    | Hovered(handler: Option<Handler>, sampled: Color)
    | Selected(handler: Option<Handler>, window: nat, color: Option<Color>)

  datatype Sampler = Sampler(
    window: Option<Window>,
    configuration: Option<Configuration>,
    onMouseMoved: Option<Handler>,
    selectionHandler: Option<Handler>,
    monitors: seq<Monitor>,
    isRunning: bool,
    nextToken: nat,              // identities handed to new windows and monitor handles
    callbacks: seq<Callback>,
    closed: seq<nat>,
    released: seq<nat>)

  /** The shared sampler before its first session. */
  const Idle: Sampler := Sampler(None, None, None, None, [], false, 0, [], [], [])

  function Tokens(ms: seq<Monitor>): (ts: seq<nat>)
    ensures |ts| == |ms|
    ensures forall i :: 0 <= i < |ms| ==> ts[i] == ms[i].token
  {
    seq(|ms|, i requires 0 <= i < |ms| => ms[i].token)
  }

  /** Some monitor in `ms` listens for `kind`. */
  predicate Subscribed(ms: seq<Monitor>, kind: MonitorKind)
    decreases |ms|
  {
    |ms| > 0 && (ms[0].kind == kind || Subscribed(ms[1..], kind))
  }

  /** reset(): the window, if any, stops its stream and is closed together
      with its child windows; configuration, window and both handlers are
      cleared. The monitors and isRunning are left as they are. */
  function Reset(s: Sampler): (r: Sampler)
    ensures r.window.None? && r.configuration.None?
    ensures r.onMouseMoved.None? && r.selectionHandler.None?
    ensures r.monitors == s.monitors && r.isRunning == s.isRunning
    ensures r.callbacks == s.callbacks && r.released == s.released && r.nextToken == s.nextToken
    ensures s.window.Some? ==> r.closed == s.closed + [s.window.value.id]
    ensures s.window.None? ==> r.closed == s.closed
  {
    var closedNow := if s.window.Some? then [s.window.value.id] else [];
    Sampler(None, None, None, None, s.monitors, s.isRunning, s.nextToken, s.callbacks, s.closed + closedNow, s.released)
  }

  /** Resetting twice is resetting once. */
  lemma ResetIdempotent(s: Sampler)
    ensures Reset(Reset(s)) == Reset(s)
  {
  }

  /** The six handles addMouseMonitor obtains, with tokens from `first` on. */
  function Subscriptions(first: nat): (ms: seq<Monitor>)
    ensures |ms| == |MonitorKinds|
    ensures forall i :: 0 <= i < |ms| ==> ms[i] == Monitor(first + i, MonitorKinds[i])
  {
    seq(|MonitorKinds|, i requires 0 <= i < |MonitorKinds| => Monitor(first + i, MonitorKinds[i]))
  }

  /** addMouseMonitor(): appends six fresh handles, one per monitor kind, to
      whatever the list already holds. */
  function AddMouseMonitors(s: Sampler): (r: Sampler)
    ensures |r.monitors| == |s.monitors| + 6
    ensures r.monitors[..|s.monitors|] == s.monitors
    ensures forall k :: Subscribed(r.monitors, k)
    ensures forall i :: |s.monitors| <= i < |r.monitors| ==>
      r.monitors[i] == Monitor(s.nextToken + (i - |s.monitors|), MonitorKinds[i - |s.monitors|])
    ensures r.nextToken == s.nextToken + 6
    ensures r == s.(monitors := r.monitors, nextToken := r.nextToken)
  {
    var r := s.(monitors := s.monitors + Subscriptions(s.nextToken), nextToken := s.nextToken + 6);
    SubscribedSuffix(s.monitors, Subscriptions(s.nextToken));
    r
  }

  /** Every kind is subscribed in a list ending with the six subscriptions. */
  lemma {:induction false} SubscribedSuffix(ms: seq<Monitor>, sub: seq<Monitor>)
    requires |sub| == |MonitorKinds|
    requires forall i :: 0 <= i < |sub| ==> sub[i].kind == MonitorKinds[i]
    ensures forall k :: Subscribed(ms + sub, k)
    decreases |ms|
  {
    if |ms| == 0 {
      assert ms + sub == sub;
      forall k
        ensures Subscribed(sub, k)
      {
        var i := if k == GlobalMouseMoved then 0 else if k == LocalMouseExited then 1
          else if k == GlobalLeftMouseDown then 2 else if k == GlobalKeyDown then 3
          else if k == LocalLeftMouseDown then 4 else 5;
        assert sub[i].kind == k;
        SubscribedAt(sub, i);
      }
    } else {
      assert (ms + sub)[1..] == ms[1..] + sub;
      SubscribedSuffix(ms[1..], sub);
    }
  }

  /** A monitor at position i makes its kind subscribed. */
  lemma {:induction false} SubscribedAt(ms: seq<Monitor>, i: nat)
    requires i < |ms|
    ensures Subscribed(ms, ms[i].kind)
    decreases i
  {
    if i > 0 {
      SubscribedAt(ms[1..], i - 1);
    }
  }

  /** removeMonitors(): every handle is given back, in order, and the list is
      emptied whatever it held. */
  function RemoveMonitors(s: Sampler): (r: Sampler)
    ensures r.monitors == []
    ensures r.released == s.released + Tokens(s.monitors)
    ensures r == s.(monitors := [], released := r.released)
  {
    s.(monitors := [], released := s.released + Tokens(s.monitors))
  }

  function HoverCallbacks(h: Option<Handler>, hover: Option<Color>): seq<Callback> {
    if hover.Some? then [Hovered(h, hover.value)] else []
  }

  /** show(): a window of the loupe size grown by the padding, six monitors, the
      window ordered front and placed by a first mouseMoved, then isRunning.
      Without a configuration nothing happens. */
  function Show(s: Sampler, env: Env, host: Host): (r: Sampler)
    ensures s.configuration.None? ==> r == s
    ensures s.configuration.Some? ==>
      var cfg := s.configuration.value;
      && r.isRunning
      && r.window.Some? && r.window.value.id == s.nextToken && r.window.value.onScreen
      && r.window.value.size == WindowSize(cfg) && r.window.value.image.None?
      && r.monitors == s.monitors + Subscriptions(s.nextToken + 1)
      && r.nextToken == s.nextToken + 7
      && r == s.(window := r.window, monitors := r.monitors, nextToken := r.nextToken, isRunning := true)
    ensures s.configuration.Some? && FirstScreenFrom(env.screens, env.mouse, 0).Some? ==>
      var screen := env.screens[FirstScreenFrom(env.screens, env.mouse, 0).value];
      && r.window.value.activeDisplay == Some(screen)
      && r.window.value.origin == WindowOrigin(env.mouse, screen.frame, WindowSize(s.configuration.value), s.configuration.value)
    ensures s.configuration.Some? ==>
      && r.window.value.zoom.None?
      && r.window.value.loupeColor == White
      && r.window.value.sampledColor.None?
      && r.window.value.reconfigurations == (if FirstScreenFrom(env.screens, env.mouse, 0).Some? then 1 else 0)
  {
    match s.configuration
    case None => s
    case Some(cfg) =>
      var w := NewWindow(s.nextToken, WindowSize(cfg));
      var s1 := AddMouseMonitors(s.(window := Some(w), nextToken := s.nextToken + 1));
      var m := MouseMoved(w.(onScreen := true), env, cfg, host);
      s1.(window := Some(m.window),
          callbacks := s1.callbacks + HoverCallbacks(s1.onMouseMoved, m.hover),
          isRunning := true)
  }

  /** sample(onMouseMoved:selectionHandler:configuration:): reset first, so the
      previous window is closed without any handler call, then the new
      handlers and configuration are stored and show runs. The old monitors
      are not removed: the new six are added to them. */
  function Sample(s: Sampler, onMove: Handler, selection: Handler, cfg: Configuration, env: Env, host: Host): (r: Sampler)
    ensures r.isRunning
    ensures r.configuration == Some(cfg)
    ensures r.onMouseMoved == Some(onMove) && r.selectionHandler == Some(selection)
    ensures r.window.Some? && r.window.value.id == s.nextToken && r.window.value.onScreen
    ensures r.window.value.size == WindowSize(cfg) && r.window.value.image.None?
    ensures r.window.value.zoom.None? && r.window.value.loupeColor == White && r.window.value.sampledColor.None?
    ensures r.monitors == s.monitors + Subscriptions(s.nextToken + 1)
    ensures forall k :: Subscribed(r.monitors, k)
    ensures r.nextToken == s.nextToken + 7
    ensures r.callbacks == s.callbacks && r.released == s.released
    ensures s.window.Some? ==> r.closed == s.closed + [s.window.value.id]
    ensures s.window.None? ==> r.closed == s.closed
  {
    var r0 := Reset(s);
    Show(r0.(onMouseMoved := Some(onMove), selectionHandler := Some(selection), configuration := Some(cfg)), env, host)
  }

  /** Two sample calls without a terminal event in between leave twelve
      handles registered and the first window closed. */
  lemma SampleTwiceAccumulates(s: Sampler, h1: Handler, h2: Handler, cfg: Configuration, env: Env, host: Host)
    ensures var r := Sample(Sample(s, h1, h2, cfg, env, host), h1, h2, cfg, env, host);
      |r.monitors| == |s.monitors| + 12 && s.nextToken in r.closed
  {
  }

  /** reset right after sample closes the window but keeps every monitor
      subscribed and isRunning set. */
  lemma SampleThenResetKeepsMonitors(s: Sampler, h1: Handler, h2: Handler, cfg: Configuration, env: Env, host: Host)
    ensures var r := Reset(Sample(s, h1, h2, cfg, env, host));
      && r.window.None? && r.isRunning
      && |r.monitors| == |s.monitors| + 6 && r.released == s.released
  {
  }

  function ReportCallbacks(h: Option<Handler>, window: nat, report: Report): seq<Callback> {
    match report
    case Silent => []
    case Reported(c) => [Selected(h, window, c)]
  }

  /** colorSelected(): isRunning is cleared, the window finalizes the colour
      under the cursor, the monitors are removed, then reset. */
  function ColorSelected(s: Sampler, env: Env, host: Host): (r: Sampler)
    ensures !r.isRunning && r.window.None? && r.configuration.None? && r.monitors == []
    ensures r.onMouseMoved.None? && r.selectionHandler.None?
    ensures r.released == s.released + Tokens(s.monitors) && r.nextToken == s.nextToken
    ensures s.window.None? ==> r.callbacks == s.callbacks && r.closed == s.closed
    ensures s.window.Some? ==> r.closed == s.closed + [s.window.value.id]
    ensures s.window.Some? && s.configuration.Some? ==>
      var c := SampleAtCursor(s.window.value, env.mouse, s.configuration.value, host).color;
      r.callbacks == s.callbacks + (if c.Some? then [Selected(s.selectionHandler, s.window.value.id, c)] else [])
    ensures s.window.Some? && s.configuration.None? ==> r.callbacks == s.callbacks
  {
    var s1 := s.(isRunning := false);
    var s2 :=
      if s1.window.Some? && s1.configuration.Some? then
        var c := FinalizeColor(s1.window.value, env.mouse, s1.configuration.value, host);
        s1.(window := Some(c.window),
            callbacks := s1.callbacks + ReportCallbacks(s1.selectionHandler, c.window.id, c.report))
      else s1;
    Reset(RemoveMonitors(s2))
  }

  /** cancel(): the same, except that the window reports no colour. */
  function Cancel(s: Sampler): (r: Sampler)
    ensures !r.isRunning && r.window.None? && r.configuration.None? && r.monitors == []
    ensures r.onMouseMoved.None? && r.selectionHandler.None?
    ensures r.released == s.released + Tokens(s.monitors) && r.nextToken == s.nextToken
    ensures s.window.None? ==> r.callbacks == s.callbacks && r.closed == s.closed
    ensures s.window.Some? ==> r.closed == s.closed + [s.window.value.id]
    ensures s.window.Some? ==> r.callbacks == s.callbacks + [Selected(s.selectionHandler, s.window.value.id, None)]
  {
    var s1 := s.(isRunning := false);
    var s2 :=
      if s1.window.Some? then
        var c := CancelWindow(s1.window.value);
        s1.(window := Some(c.window),
            callbacks := s1.callbacks + ReportCallbacks(s1.selectionHandler, c.window.id, c.report))
      else s1;
    Reset(RemoveMonitors(s2))
  }

  /** After a terminal action the window is gone, so a second colorSelected or
      cancel reaches no window: it calls no handler and closes nothing. */
  lemma SecondTerminalIsSilent(s: Sampler, env: Env, host: Host)
    ensures var t := ColorSelected(s, env, host);
      && Cancel(t).callbacks == t.callbacks && Cancel(t).closed == t.closed
      && ColorSelected(t, env, host).callbacks == t.callbacks && ColorSelected(t, env, host).closed == t.closed
    ensures var t := Cancel(s);
      && Cancel(t).callbacks == t.callbacks && Cancel(t).closed == t.closed
      && ColorSelected(t, env, host).callbacks == t.callbacks && ColorSelected(t, env, host).closed == t.closed
  {
  }

  /** The window's own mouseMoved, as the two move monitors call it. */
  function WindowMouseMoved(s: Sampler, env: Env, host: Host): Sampler {
    if s.window.Some? && s.configuration.Some? then
      ApplyMoved(s, MouseMoved(s.window.value, env, s.configuration.value, host))
    else s
  }

  /** The key monitors: Escape cancels, Return selects; the two tests are made
      one after the other. */
  function KeyDown(s: Sampler, keyCode: int, env: Env, host: Host): (r: Sampler)
    ensures keyCode == KeyEscape ==> r == Cancel(s)
    ensures keyCode == KeyReturn ==> r == ColorSelected(s, env, host)
    ensures keyCode != KeyEscape && keyCode != KeyReturn ==> r == s
  {
    var s1 := if keyCode == KeyEscape then Cancel(s) else s;
    if keyCode == KeyReturn then ColorSelected(s1, env, host) else s1
  }

  /** One monitor's handler. Click and key handlers return at once unless the
      session is running. */
  function Handle(s: Sampler, kind: MonitorKind, keyCode: int, env: Env, host: Host): (r: Sampler)
    ensures IsClickOrKey(kind) && !s.isRunning ==> r == s
    ensures (kind == GlobalLeftMouseDown || kind == LocalLeftMouseDown) && s.isRunning ==>
      r == ColorSelected(s, env, host)
    ensures (kind == GlobalKeyDown || kind == LocalKeyDown) && s.isRunning ==>
      && (keyCode == KeyEscape ==> r == Cancel(s))
      && (keyCode == KeyReturn ==> r == ColorSelected(s, env, host))
      && (keyCode != KeyEscape && keyCode != KeyReturn ==> r == s)
    ensures !IsClickOrKey(kind) ==> r == s.(window := r.window, callbacks := r.callbacks)
    ensures !IsClickOrKey(kind) && (s.window.None? || s.configuration.None?) ==> r == s
    ensures !IsClickOrKey(kind) && s.window.Some? && s.configuration.Some? ==>
      var m := MouseMoved(s.window.value, env, s.configuration.value, host);
      && r.window == Some(m.window)
      && r.callbacks == s.callbacks + (if m.hover.Some? then [Hovered(s.onMouseMoved, m.hover.value)] else [])
  {
    match kind
    case GlobalMouseMoved => WindowMouseMoved(s, env, host)
    case LocalMouseExited => WindowMouseMoved(s, env, host)
    case GlobalLeftMouseDown => if s.isRunning then ColorSelected(s, env, host) else s
    case LocalLeftMouseDown => if s.isRunning then ColorSelected(s, env, host) else s
    case GlobalKeyDown => if s.isRunning then KeyDown(s, keyCode, env, host) else s
    case LocalKeyDown => if s.isRunning then KeyDown(s, keyCode, env, host) else s
  }

  /** An event reaches every registered monitor of its kind, in registration
      order, the list being the one registered when the event arrived. */
  function Dispatch(s: Sampler, ms: seq<Monitor>, ev: InputEvent, env: Env, host: Host): Sampler
    decreases |ms|
  {
    if |ms| == 0 then s
    else
      var s1 := if ms[0].kind == ev.kind then Handle(s, ev.kind, ev.keyCode, env, host) else s;
      Dispatch(s1, ms[1..], ev, env, host)
  }

  function Deliver(s: Sampler, ev: InputEvent, env: Env, host: Host): Sampler {
    Dispatch(s, s.monitors, ev, env, host)
  }

  predicate IsClickOrKey(kind: MonitorKind) {
    kind == GlobalLeftMouseDown || kind == LocalLeftMouseDown || kind == GlobalKeyDown || kind == LocalKeyDown
  }

  /** Once a session has ended (not running, no window) every handler is a
      no-op, however many stale monitors an event still reaches. */
  lemma {:induction false} EndedSessionIgnoresEvents(s: Sampler, ms: seq<Monitor>, ev: InputEvent, env: Env, host: Host)
    requires !s.isRunning && s.window.None?
    ensures Dispatch(s, ms, ev, env, host) == s
    decreases |ms|
  {
    if |ms| > 0 {
      EndedSessionIgnoresEvents(s, ms[1..], ev, env, host);
    }
  }

  /** While not running, clicks and keys change nothing. */
  lemma {:induction false} IdleIgnoresClicksAndKeys(s: Sampler, ms: seq<Monitor>, ev: InputEvent, env: Env, host: Host)
    requires !s.isRunning && IsClickOrKey(ev.kind)
    ensures Dispatch(s, ms, ev, env, host) == s
    decreases |ms|
  {
    if |ms| > 0 {
      IdleIgnoresClicksAndKeys(s, ms[1..], ev, env, host);
    }
  }

  /** While running, a click or key event acts exactly as the handler of the
      first monitor of its kind: that handler either changes nothing (another
      key) or ends the session, after which the other monitors are no-ops. */
  lemma {:induction false} RunningDispatchActsOnce(s: Sampler, ms: seq<Monitor>, ev: InputEvent, env: Env, host: Host)
    requires s.isRunning && IsClickOrKey(ev.kind)
    ensures Dispatch(s, ms, ev, env, host)
         == (if Subscribed(ms, ev.kind) then Handle(s, ev.kind, ev.keyCode, env, host) else s)
    decreases |ms|
  {
    if |ms| > 0 {
      if ms[0].kind == ev.kind {
        var h := Handle(s, ev.kind, ev.keyCode, env, host);
        if h == s {
          RunningDispatchActsOnce(s, ms[1..], ev, env, host);
        } else {
          EndedSessionIgnoresEvents(h, ms[1..], ev, env, host);
        }
      } else {
        RunningDispatchActsOnce(s, ms[1..], ev, env, host);
      }
    }
  }

  /** Escape on a running session with a key monitor is cancel. */
  lemma EscapeCancels(s: Sampler, kind: MonitorKind, env: Env, host: Host)
    requires s.isRunning && (kind == GlobalKeyDown || kind == LocalKeyDown) && Subscribed(s.monitors, kind)
    ensures Deliver(s, InputEvent(kind, KeyEscape), env, host) == Cancel(s)
  {
    RunningDispatchActsOnce(s, s.monitors, InputEvent(kind, KeyEscape), env, host);
  }

  /** Return on a running session with a key monitor is colorSelected. */
  lemma ReturnSelects(s: Sampler, kind: MonitorKind, env: Env, host: Host)
    requires s.isRunning && (kind == GlobalKeyDown || kind == LocalKeyDown) && Subscribed(s.monitors, kind)
    ensures Deliver(s, InputEvent(kind, KeyReturn), env, host) == ColorSelected(s, env, host)
  {
    RunningDispatchActsOnce(s, s.monitors, InputEvent(kind, KeyReturn), env, host);
  }

  /** A left click on a running session with a click monitor is colorSelected. */
  lemma ClickSelects(s: Sampler, kind: MonitorKind, keyCode: int, env: Env, host: Host)
    requires s.isRunning && (kind == GlobalLeftMouseDown || kind == LocalLeftMouseDown) && Subscribed(s.monitors, kind)
    ensures Deliver(s, InputEvent(kind, keyCode), env, host) == ColorSelected(s, env, host)
  {
    RunningDispatchActsOnce(s, s.monitors, InputEvent(kind, keyCode), env, host);
  }

  /** Right after sample, Escape (seen by either key monitor) cancels the new
      session, and the selection handler just stored is told "no colour". */
  lemma EscapeAfterSampleReportsNone(s: Sampler, h1: Handler, h2: Handler, cfg: Configuration, kind: MonitorKind, env: Env, env2: Env, host: Host)
    requires kind == GlobalKeyDown || kind == LocalKeyDown
    ensures var t := Sample(s, h1, h2, cfg, env, host);
      var r := Deliver(t, InputEvent(kind, KeyEscape), env2, host);
      && r.callbacks == s.callbacks + [Selected(Some(h2), s.nextToken, None)]
      && !r.isRunning && r.monitors == [] && r.window.None?
  {
    var t := Sample(s, h1, h2, cfg, env, host);
    EscapeCancels(t, kind, env2, host);
  }

  /** Without a window no event calls a handler: after reset, stale monitors
      may still fire, but no callback follows. */
  lemma {:induction false} NoWindowNoCallbacks(s: Sampler, ms: seq<Monitor>, ev: InputEvent, env: Env, host: Host)
    requires s.window.None?
    ensures Dispatch(s, ms, ev, env, host).callbacks == s.callbacks
    ensures Dispatch(s, ms, ev, env, host).window.None?
    decreases |ms|
  {
    if |ms| > 0 {
      var s1 := if ms[0].kind == ev.kind then Handle(s, ev.kind, ev.keyCode, env, host) else s;
      assert s1.callbacks == s.callbacks && s1.window.None?;
      NoWindowNoCallbacks(s1, ms[1..], ev, env, host);
    }
  }

  function ApplyMoved(s: Sampler, m: Moved): Sampler {
    s.(window := Some(m.window), callbacks := s.callbacks + HoverCallbacks(s.onMouseMoved, m.hover))
  }

  /** A pinch on the overlay window (not guarded by isRunning). */
  function WindowMagnify(s: Sampler, magnification: real, env: Env, host: Host): Sampler {
    if s.window.Some? && s.configuration.Some? then
      ApplyMoved(s, Magnify(s.window.value, magnification, env, s.configuration.value, host))
    else s
  }

  /** A wheel event on the overlay window. */
  function WindowScroll(s: Sampler, deltaY: real, env: Env, host: Host): Sampler {
    if s.window.Some? && s.configuration.Some? then
      ApplyMoved(s, ScrollWheel(s.window.value, deltaY, env, s.configuration.value, host))
    else s
  }

  /** A frame from the window's capture stream. */
  function WindowFrame(s: Sampler, f: Frame, env: Env, host: Host): Sampler {
    if s.window.Some? && s.configuration.Some? then
      s.(window := Some(ReceiveFrame(s.window.value, f, env.mouse, s.configuration.value, host)))
    else s
  }

  datatype Command =
    | SampleCall(onMouseMoved: Handler, selectionHandler: Handler, config: Configuration)
    | ResetCall
    | CancelCall
    | Input(event: InputEvent)
    | MagnifyGesture(magnification: real)
    | WheelScroll(deltaY: real)
    | FrameDelivered(frame: Frame)

  /** A command together with what AppKit reports when it arrives. */
  datatype Tick = Tick(command: Command, env: Env)

  function Step(s: Sampler, t: Tick, host: Host): Sampler {
    match t.command
    case SampleCall(h1, h2, cfg) => Sample(s, h1, h2, cfg, t.env, host)
    case ResetCall => Reset(s)
    case CancelCall => Cancel(s)
    case Input(ev) => Deliver(s, ev, t.env, host)
    case MagnifyGesture(m) => WindowMagnify(s, m, t.env, host)
    case WheelScroll(d) => WindowScroll(s, d, t.env, host)
    case FrameDelivered(f) => WindowFrame(s, f, t.env, host)
  }

  function Run(s: Sampler, ts: seq<Tick>, host: Host): Sampler
    decreases |ts|
  {
    if |ts| == 0 then s else Run(Step(s, ts[0], host), ts[1..], host)
  }

  predicate Distinct(xs: seq<nat>) {
    forall i, j :: 0 <= i < j < |xs| ==> xs[i] != xs[j]
  }

  predicate Below(xs: seq<nat>, bound: nat) {
    forall i :: 0 <= i < |xs| ==> xs[i] < bound
  }

  /** No two selection callbacks name the same window. */
  predicate SelectionsDistinct(cbs: seq<Callback>) {
    forall i, j :: 0 <= i < j < |cbs| && cbs[i].Selected? && cbs[j].Selected? ==> cbs[i].window != cbs[j].window
  }

  predicate NotSelected(cbs: seq<Callback>, id: nat) {
    forall i :: 0 <= i < |cbs| && cbs[i].Selected? ==> cbs[i].window != id
  }

  predicate SelectedBelow(cbs: seq<Callback>, bound: nat) {
    forall i :: 0 <= i < |cbs| && cbs[i].Selected? ==> cbs[i].window < bound
  }

  /** The bookkeeping every reachable sampler keeps: live handles are distinct,
      fresh and not yet released; released handles, closed windows and
      selected windows are each recorded at most once; the live window has
      been neither closed nor reported. */
  predicate Consistent(s: Sampler) {
    && (forall i, j :: 0 <= i < j < |s.monitors| ==> s.monitors[i].token != s.monitors[j].token)
    && (forall i :: 0 <= i < |s.monitors| ==> s.monitors[i].token < s.nextToken && s.monitors[i].token !in s.released)
    && Distinct(s.released) && Below(s.released, s.nextToken)
    && Distinct(s.closed) && Below(s.closed, s.nextToken)
    && SelectionsDistinct(s.callbacks) && SelectedBelow(s.callbacks, s.nextToken)
    && (s.window.Some? ==>
          && s.window.value.id < s.nextToken
          && s.window.value.id !in s.closed
          && NotSelected(s.callbacks, s.window.value.id))
  }

  lemma IdleConsistent()
    ensures Consistent(Idle)
  {
  }

  lemma ResetKeepsConsistent(s: Sampler)
    requires Consistent(s)
    ensures Consistent(Reset(s))
  {
  }

  lemma RemoveMonitorsKeepsConsistent(s: Sampler)
    requires Consistent(s)
    ensures Consistent(RemoveMonitors(s))
  {
    var r := RemoveMonitors(s);
    var ts := Tokens(s.monitors);
    forall i, j | 0 <= i < j < |r.released|
      ensures r.released[i] != r.released[j]
    {
      if j >= |s.released| && i < |s.released| {
        assert r.released[j] == s.monitors[j - |s.released|].token;
      } else if i >= |s.released| {
        assert r.released[i] == s.monitors[i - |s.released|].token;
        assert r.released[j] == s.monitors[j - |s.released|].token;
      }
    }
  }

  lemma ShowKeepsConsistent(s: Sampler, env: Env, host: Host)
    requires Consistent(s) && s.window.None?
    ensures Consistent(Show(s, env, host))
  {
    if s.configuration.Some? {
      var s0 := s.(window := Some(NewWindow(s.nextToken, WindowSize(s.configuration.value))), nextToken := s.nextToken + 1);
      assert Consistent(s0);
      var s1 := AddMouseMonitors(s0);
      assert s1.monitors == s0.monitors + Subscriptions(s0.nextToken);
      forall i, j | 0 <= i < j < |s1.monitors|
        ensures s1.monitors[i].token != s1.monitors[j].token
      {
        if j >= |s0.monitors| && i < |s0.monitors| {
          assert s1.monitors[j].token >= s0.nextToken;
        }
      }
    }
  }

  lemma SampleKeepsConsistent(s: Sampler, h1: Handler, h2: Handler, cfg: Configuration, env: Env, host: Host)
    requires Consistent(s)
    ensures Consistent(Sample(s, h1, h2, cfg, env, host))
  {
    var r0 := Reset(s);
    ResetKeepsConsistent(s);
    ShowKeepsConsistent(r0.(onMouseMoved := Some(h1), selectionHandler := Some(h2), configuration := Some(cfg)), env, host);
  }

  /** A terminal action keeps the bookkeeping: the handles are released, the
      live window is closed, and at most one selection naming it is added. */
  lemma EndKeepsConsistent(s: Sampler, r: Sampler)
    requires Consistent(s)
    requires r.window.None? && r.monitors == [] && r.nextToken == s.nextToken
    requires r.released == s.released + Tokens(s.monitors)
    requires s.window.None? ==> r.closed == s.closed && r.callbacks == s.callbacks
    requires s.window.Some? ==> r.closed == s.closed + [s.window.value.id]
    requires s.window.Some? ==>
      && |s.callbacks| <= |r.callbacks| <= |s.callbacks| + 1
      && r.callbacks[..|s.callbacks|] == s.callbacks
      && forall i :: |s.callbacks| <= i < |r.callbacks| ==>
           r.callbacks[i].Selected? && r.callbacks[i].window == s.window.value.id
    ensures Consistent(r)
  {
    RemoveMonitorsKeepsConsistent(s);
    var n := |s.callbacks|;
    if s.window.Some? {
      forall i, j | 0 <= i < j < |r.callbacks| && r.callbacks[i].Selected? && r.callbacks[j].Selected?
        ensures r.callbacks[i].window != r.callbacks[j].window
      {
        assert r.callbacks[i] == s.callbacks[i] by {
          assert i < n;
          assert r.callbacks[..n][i] == r.callbacks[i];
        }
        if j < n {
          assert r.callbacks[..n][j] == r.callbacks[j];
        }
      }
      forall i | 0 <= i < |r.callbacks| && r.callbacks[i].Selected?
        ensures r.callbacks[i].window < r.nextToken
      {
        if i < n {
          assert r.callbacks[..n][i] == r.callbacks[i];
        }
      }
    }
  }

  lemma ColorSelectedKeepsConsistent(s: Sampler, env: Env, host: Host)
    requires Consistent(s)
    ensures Consistent(ColorSelected(s, env, host))
  {
    EndKeepsConsistent(s, ColorSelected(s, env, host));
  }

  lemma CancelKeepsConsistent(s: Sampler)
    requires Consistent(s)
    ensures Consistent(Cancel(s))
  {
    EndKeepsConsistent(s, Cancel(s));
  }

  /** An update that only moves the live window on and may call the hover
      handler keeps the bookkeeping. */
  lemma ApplyMovedKeepsConsistent(s: Sampler, m: Moved)
    requires Consistent(s) && s.window.Some? && m.window.id == s.window.value.id
    ensures Consistent(ApplyMoved(s, m))
  {
  }

  lemma HandleKeepsConsistent(s: Sampler, kind: MonitorKind, keyCode: int, env: Env, host: Host)
    requires Consistent(s)
    ensures Consistent(Handle(s, kind, keyCode, env, host))
  {
    match kind
    case GlobalMouseMoved =>
      if s.window.Some? && s.configuration.Some? {
        ApplyMovedKeepsConsistent(s, MouseMoved(s.window.value, env, s.configuration.value, host));
      }
    case LocalMouseExited =>
      if s.window.Some? && s.configuration.Some? {
        ApplyMovedKeepsConsistent(s, MouseMoved(s.window.value, env, s.configuration.value, host));
      }
    case GlobalLeftMouseDown => ColorSelectedKeepsConsistent(s, env, host);
    case LocalLeftMouseDown => ColorSelectedKeepsConsistent(s, env, host);
    case GlobalKeyDown => KeyDownKeepsConsistent(s, keyCode, env, host);
    case LocalKeyDown => KeyDownKeepsConsistent(s, keyCode, env, host);
  }

  lemma KeyDownKeepsConsistent(s: Sampler, keyCode: int, env: Env, host: Host)
    requires Consistent(s)
    ensures Consistent(KeyDown(s, keyCode, env, host))
  {
    CancelKeepsConsistent(s);
    var s1 := if keyCode == KeyEscape then Cancel(s) else s;
    ColorSelectedKeepsConsistent(s1, env, host);
  }

  lemma {:induction false} DispatchKeepsConsistent(s: Sampler, ms: seq<Monitor>, ev: InputEvent, env: Env, host: Host)
    requires Consistent(s)
    ensures Consistent(Dispatch(s, ms, ev, env, host))
    decreases |ms|
  {
    if |ms| > 0 {
      HandleKeepsConsistent(s, ev.kind, ev.keyCode, env, host);
      var s1 := if ms[0].kind == ev.kind then Handle(s, ev.kind, ev.keyCode, env, host) else s;
      DispatchKeepsConsistent(s1, ms[1..], ev, env, host);
    }
  }

  lemma StepKeepsConsistent(s: Sampler, t: Tick, host: Host)
    requires Consistent(s)
    ensures Consistent(Step(s, t, host))
  {
    match t.command
    case SampleCall(h1, h2, cfg) => SampleKeepsConsistent(s, h1, h2, cfg, t.env, host);
    case ResetCall => ResetKeepsConsistent(s);
    case CancelCall => CancelKeepsConsistent(s);
    case Input(ev) => DispatchKeepsConsistent(s, s.monitors, ev, t.env, host);
    case MagnifyGesture(m) =>
      if s.window.Some? && s.configuration.Some? {
        ApplyMovedKeepsConsistent(s, Magnify(s.window.value, m, t.env, s.configuration.value, host));
      }
    case WheelScroll(d) =>
      if s.window.Some? && s.configuration.Some? {
        ApplyMovedKeepsConsistent(s, ScrollWheel(s.window.value, d, t.env, s.configuration.value, host));
      }
    case FrameDelivered(f) =>
  }

  lemma {:induction false} RunKeepsConsistent(s: Sampler, ts: seq<Tick>, host: Host)
    requires Consistent(s)
    ensures Consistent(Run(s, ts, host))
    decreases |ts|
  {
    if |ts| > 0 {
      StepKeepsConsistent(s, ts[0], host);
      RunKeepsConsistent(Step(s, ts[0], host), ts[1..], host);
    }
  }

  /** Whatever the caller and the user do, starting from the idle sampler: the
      selection handler is called at most once per window, no window is
      closed twice and no monitor handle is given back twice. */
  lemma AtMostOneTerminalPerWindow(ts: seq<Tick>, host: Host)
    ensures var r := Run(Idle, ts, host);
      && SelectionsDistinct(r.callbacks)
      && Distinct(r.closed)
      && Distinct(r.released)
  {
    IdleConsistent();
    RunKeepsConsistent(Idle, ts, host);
  }
}

=== FILE: wrappers.dfy ===
/** The optional value the Swift code writes as `T?`. */
module Wrappers {

  datatype Option<+T> = None | Some(value: T) {

    /** The wrapped value, or `default` when there is none (Swift's `??`). */
    function GetOr(default: T): (r: T)
      ensures Some? ==> r == value
      ensures None? ==> r == default
    {
      match this
      case Some(v) => v
      case None => default
    }
  }
}

=== FILE: zoom_control.dfy ===
/** ColorSamplerWindow.magnify and scrollWheel: which way a gesture or a wheel
    tick moves the zoom, and what happens when there is nowhere to go. */
module ZoomControl {
  import opened Wrappers
  import opened Config

  /** Pinch magnifications within ±0.01 do not change the zoom. */
  const MagnifyDeadZone: real := 0.01

  /** Wheel deltas within ±1 do not change the zoom. */
  const ScrollDeadZone: real := 1.0

  datatype Step = ZoomIn | ZoomOut | Hold

  /** getNextZoom(available:) and getPreviousZoom(available:) of the zoom
      preset enum, which is not part of this model: each answers the
      neighbouring preset, or None when there is none. */
  datatype ZoomSteps = ZoomSteps(
    next: (seq<ZoomValue>, ZoomValue) -> Option<ZoomValue>,
    previous: (seq<ZoomValue>, ZoomValue) -> Option<ZoomValue>)

  function Opposite(s: Step): Step {
    match s
    case ZoomIn => ZoomOut
    case ZoomOut => ZoomIn
    case Hold => Hold
  }

  /** The step a magnify gesture asks for. */
  function MagnifyStep(magnification: real): (s: Step)
    ensures s == ZoomIn <==> magnification > MagnifyDeadZone
    ensures s == ZoomOut <==> magnification < -MagnifyDeadZone
    ensures s == Hold <==> -MagnifyDeadZone <= magnification <= MagnifyDeadZone
  {
    if magnification > MagnifyDeadZone then ZoomIn
    else if magnification < -MagnifyDeadZone then ZoomOut
    else Hold
  }

  /** The step a wheel event asks for; with zoomWheelInverse the delta is
      negated first. Scrolling down (negative delta) zooms in. */
  function ScrollStep(deltaY: real, inverse: bool): (s: Step)
    ensures var d := if inverse then -deltaY else deltaY;
      && (s == ZoomIn <==> d < -ScrollDeadZone)
      && (s == ZoomOut <==> d > ScrollDeadZone)
      && (s == Hold <==> -ScrollDeadZone <= d <= ScrollDeadZone)
  {
    var d := if inverse then -deltaY else deltaY;
    if d < -ScrollDeadZone then ZoomIn
    else if d > ScrollDeadZone then ZoomOut
    else Hold
  }

  /** Inverting the wheel swaps the two directions and keeps the dead zone. */
  lemma ScrollInversionSwapsDirection(deltaY: real)
    ensures ScrollStep(deltaY, true) == Opposite(ScrollStep(deltaY, false))
  {
  }

  /** The zoom after an event and whether the window then redraws (calls
      mouseMoved). */
  datatype ZoomUpdate = ZoomUpdate(zoom: Option<ZoomValue>, redraw: bool)

  /** The neighbour a step asks the preset enum for. */
  function Neighbour(steps: ZoomSteps, step: Step, available: seq<ZoomValue>, zoom: ZoomValue): Option<ZoomValue>
    requires step != Hold
  {
    if step == ZoomIn then steps.next(available, zoom) else steps.previous(available, zoom)
  }

  /** One zoom event. A step that finds no zoom set, or no neighbour, returns
      early: nothing changes and nothing is redrawn. */
  function ApplyStep(zoom: Option<ZoomValue>, step: Step, available: seq<ZoomValue>, steps: ZoomSteps): (u: ZoomUpdate)
    ensures step == Hold ==> u == ZoomUpdate(zoom, true)
    ensures !u.redraw ==> u.zoom == zoom
    ensures step != Hold ==> (u.redraw <==> zoom.Some? && Neighbour(steps, step, available, zoom.value).Some?)
    ensures step != Hold && u.redraw ==> u.zoom == Neighbour(steps, step, available, zoom.value)
  {
    if step == Hold then ZoomUpdate(zoom, true)
    else if zoom.None? then ZoomUpdate(zoom, false)
    else
      var n := Neighbour(steps, step, available, zoom.value);
      if n.None? then ZoomUpdate(zoom, false) else ZoomUpdate(n, true)
  }

  /** The zoom after a run of events. */
  function ApplySteps(zoom: Option<ZoomValue>, ss: seq<Step>, available: seq<ZoomValue>, steps: ZoomSteps): Option<ZoomValue>
    decreases |ss|
  {
    if |ss| == 0 then zoom
    else ApplySteps(ApplyStep(zoom, ss[0], available, steps).zoom, ss[1..], available, steps)
  }

  /** A preset with no next neighbour is where zooming in stops: any run of
      zoom-in and dead-zone events leaves it in place, never wrapping round. */
  lemma {:induction false} ZoomInStopsAtLast(z: ZoomValue, ss: seq<Step>, available: seq<ZoomValue>, steps: ZoomSteps)
    requires steps.next(available, z).None?
    requires forall k :: 0 <= k < |ss| ==> ss[k] != ZoomOut
    ensures ApplySteps(Some(z), ss, available, steps) == Some(z)
  {
    if |ss| > 0 {
      assert ApplyStep(Some(z), ss[0], available, steps).zoom == Some(z);
      ZoomInStopsAtLast(z, ss[1..], available, steps);
    }
  }

  /** The mirror image: a preset with no previous neighbour is where zooming
      out stops. */
  lemma {:induction false} ZoomOutStopsAtFirst(z: ZoomValue, ss: seq<Step>, available: seq<ZoomValue>, steps: ZoomSteps)
    requires steps.previous(available, z).None?
    requires forall k :: 0 <= k < |ss| ==> ss[k] != ZoomIn
    ensures ApplySteps(Some(z), ss, available, steps) == Some(z)
  {
    if |ss| > 0 {
      assert ApplyStep(Some(z), ss[0], available, steps).zoom == Some(z);
      ZoomOutStopsAtFirst(z, ss[1..], available, steps);
    }
  }
}
